=== FILE: README.md ===
# Kanji decomposition matching engine in Dafny

This project models the matching core of a kanji decomposition search site. It has two engines, and both are modelled:

- **The search worker** (`src/searchWorker.js`). It receives an init message with five tables and then answers queries:
  - `directMap` is a reverse index from a component to the composites containing it;
  - `variantMap` maps a character to its variants;
  - `patternMap` maps a character to its alternative decomposition patterns;
  - `joyoList` lists the standard-use characters;
  - `oldNewMap` maps a historical form to its modern form.

  A query is a list of parts, a mode (`partsToKanji` or `kanjiToParts`) and a region (`joyo`, `japanese` or anything else). The worker replaces each part that has no `directMap` entry but has a non-empty `patternMap` list by the leaves of its first pattern, and removes duplicates. It then builds the variant groups and their Cartesian product, intersects the reverse-index sets of every combination, and counts matches per composite. It keeps the top 100 and ranks them by pattern score. For `partsToKanji` it finally applies the region filter. A one-part `partsToKanji` query short-cuts straight to the reverse index.
- **The page matcher** (`src/App.js`). It loads a decomposition table and a variant table, and normalises every part to the first of its base characters. It answers two kinds of query:
  - `part2char`: every composite whose normalised parts meet each query character's variant group;
  - `char2part`: the normalised parts of the first Han character of the query.

Each message handler is a pure function over immutable tables. JavaScript arrays, the `Set`s built while a query runs (`rawParts`, the reverse-index sets and their intersections) the `Map` `matchCountMap`, and the page's decomposition object (`normalized`, a plain object read through `Object.entries`) become sequences in insertion order. The worker's `joyoSet` is only asked `has`, so it is a Dafny `set`. Strings are `seq<char>`. Scores are exact `real`s. The Unicode `\p{Script=Han}` test is a parameter `isHanChar: char -> bool`.

Modules, one per file:

| module | file | what |
|---|---|---|
| `Seqs` | seqs.dfy | sequence vocabulary: `Filter`, `Dedup` (`[...new Set(xs)]`), subsequences, `Firsts` |
| `Tables` | tables.dfy | the worker's tables, modes, regions and messages |
| `Sorting` | sorting.dfy | `Array.prototype.sort` with a descending numeric comparator, as a stable insertion sort |
| `Product` | product.dfy | `cartesianProduct` |
| `Index` | index.dfy | reverse-index intersection, match tally, top-100 shortlist |
| `Score` | score.dfy | `calculateScore`, best score over patterns, ranking |
| `Regions` | regions.dfy | the `joyo` / `japanese` / unrestricted filter |
| `Worker` | worker.dfy | the query pipeline and `onmessage` |
| `App` | app.dfy | the page's normalisation and its two query modes |

Behaviours of the code worth knowing:

- **Part multiplicity is lost.** `rawParts` is de-duplicated, so repeating a part changes nothing as long as the query still has two or more parts once the repeat is removed (`Worker.RepeatedPartIgnored`, `Worker.RepeatIsIgnored`).
- **One unknown part comes back as itself.** In parts->kanji mode, a single part the reverse index does not know is returned as `[p]` when the region accepts it (always for the unrestricted region), and as `[]` otherwise (`Worker.UnknownSinglePart`). A one-part parts->kanji query takes a short cut, so `[p]` and `[p, p]` can give different results. In kanji->parts mode there is no short cut and no region filter: the part runs the full pipeline, where a part with a non-empty `patternMap` list is replaced by its first pattern's leaves and need not come back. Before an init message the tables are empty. Then a one-part parts->kanji query behaves as above, and a one-part kanji->parts query returns `[p]` whatever the region (`Worker.BeforeInitSinglePart`).
- **`directMap` is read as a reverse index.** It is indexed by component and lists composites.
- **Scores can exceed 150.** The 150 bound holds only when every scored part is Han. A non-Han leaf introduced by pattern expansion is counted in the match total but not in the Han total (`Score.NonHanPartsExceedBound`).
- **A pattern with no Han element scores 0.** It gets no prefix bonus either, even when the input is its prefix.
- **Variant matching is not symmetric.** `VariantsOf` is used one way only, so querying a variant does not in general find what querying its base finds.

## Model

| member | source | states |
|---|---|---|
| Seqs.Filter | src/searchWorker.js:120-122 | the kept elements are exactly the accepted members of the input, in input order (a subsequence); distinctness is preserved; with `Seqs.FilterAll` and `Seqs.FilterConcat` this is exactly `Array.prototype.filter` |
| Seqs.FilterAll | src/searchWorker.js:120-122 | a filter that accepts every element returns the input unchanged |
| Seqs.FilterConcat | src/searchWorker.js:120-122 | filtering a concatenation is concatenating the filtered pieces |
| Seqs.Dedup | src/searchWorker.js:55 | `[...new Set(xs)]`: no repeats, the same members as the input, ordered by first occurrence |
| Seqs.DedupAbsorb | src/searchWorker.js:55 | appending values already present does not change the de-duplicated list |
| Seqs.SubseqLength | src/searchWorker.js:119-123 | a subsequence is never longer than the list it is taken from |
| Seqs.FirstsPerm | src/searchWorker.js:86-88 | re-arranging the (key, count) pairs re-arranges their keys the same way |
| Seqs.FilterKeepsOrder | src/searchWorker.js:120-122 | a filtered list stays non-increasing in any weight the input was non-increasing in |
| Seqs.FilterNarrow | src/searchWorker.js:119-123 | filtering by a stronger test after a weaker one is filtering by the stronger one alone |
| Sorting.SortDesc | src/searchWorker.js:86 | the sort result is descending by weight, a permutation of the input (keys and pairs), and keeps the input order among equal weights |
| Sorting.Insert | src/searchWorker.js:86 | one insertion step keeps the list descending, grows it by one, and puts the new entry or the old head first |
| Sorting.InsertPerm | src/searchWorker.js:86 | one insertion step adds exactly the new entry to the list's entries |
| Sorting.SortDescIsTheStableSort | src/searchWorker.js:86 | any descending arrangement that keeps the order within each weight equals `SortDesc`, so the stable sort has one result |
| Sorting.SortUnique | src/searchWorker.js:86 | two descending lists with the same entries per weight, in the same order, are equal |
| Product.Extend | src/searchWorker.js:63 | one `flatMap` step: `|acc| * |curr|` combinations, exactly a combination of `acc` followed by a member of `curr` |
| Product.Cartesian | src/searchWorker.js:61-65 | the number of combinations is the product of the group lengths, and a list is a combination iff it picks one member of each group in order |
| Index.Containers | src/searchWorker.js:71-75 | a component's set is never empty; it is the component alone when the index has no entry or an empty one |
| Index.Narrow | src/searchWorker.js:78 | the `reduce` step after the first set: no repeats, and exactly the members of the first set that every later set has |
| Index.Intersect | src/searchWorker.js:78 | the intersection has no repeats and holds exactly the composites in every component's set |
| Index.Bump | src/searchWorker.js:80 | incrementing raises one key's count by one and leaves every other count alone; keys stay distinct |
| Index.BumpAll | src/searchWorker.js:79-81 | every key of the intersection gains one and no other key changes |
| Index.Hits | src/searchWorker.js:70-82 | a composite is counted iff some non-empty combination has it in its intersection |
| Index.TallyMatches | src/searchWorker.js:69-82 | the tally's count for every composite equals the number of non-empty combinations it matches; only matched composites are keys |
| Index.CountOf | src/searchWorker.js:80 | in a well-formed tally a composite's count is positive iff it is a key |
| Index.Shortlist | src/searchWorker.js:85-88 | at most 100 distinct matched keys (exactly `min(|m|, 100)`), non-increasing count, every key kept when there are 100 or fewer, and no key left out that outnumbers a kept one |
| Index.TopMatches | src/searchWorker.js:69-88 | the shortlist read through the independent count `Hits`: only matched composites, by non-increasing match count, none left out that matches more often than one kept, and every matched composite when fewer than 100 are kept |
| Score.CalculateScore | src/searchWorker.js:91-105 | score is 0 without Han pattern elements, otherwise the match rate plus 50 exactly when the input is a prefix of the pattern; never negative; at most 150 (at most 100 without the bonus) when every input part is Han; the `match` sum of lines 95-101 is `Score.MatchCount`, whose properties are the `MatchCountBound` and `MatchCountOfDistinct` rows |
| Score.ExactPrefixIsPrefix | src/searchWorker.js:103 | the position-by-position test is the sequence-prefix relation |
| Score.RateBound | src/searchWorker.js:95-102 | the rate is non-negative, and at most 100 when every input part is Han |
| Score.MatchCountBound | src/searchWorker.js:95-101 | with Han input parts the matched occurrences never outnumber the Han elements of the pattern |
| Score.MatchCountOfDistinct | src/searchWorker.js:95-101 | with distinct input parts the match count is the number of input parts the pattern contains |
| Score.NonHanPartsExceedBound | src/searchWorker.js:92-104 | with a non-Han input part the score reaches 250, so the 150 bound needs Han-only parts |
| Score.MaxFold | src/searchWorker.js:110 | the `Math.max` fold seeded with 0: never negative, no less than any element, and either the seed 0 or one of the elements |
| Score.BestScore | src/searchWorker.js:109-110 | the best score is at least every pattern's score and is either 0 or one of them; at most 150 for Han input parts |
| Score.Rank | src/searchWorker.js:107-114 | the ranked list is a permutation of the candidates, by non-increasing best score, with equal-score candidates in shortlist order |
| Regions.ApplyRegion | src/searchWorker.js:116-125 | the filtered list is an order-preserving subsequence holding exactly the members the region accepts |
| Regions.ApplyRegionKeepsOrder | src/searchWorker.js:116-125 | the region filter keeps a list ordered by any weight |
| Regions.RegionNesting | src/searchWorker.js:33-38 | the `joyo` list is the `japanese` list filtered again; `joyo` ⊑ `japanese` ⊑ unrestricted as subsequences |
| Worker.SingleCandidates | src/searchWorker.js:25-32 | the part is always present and nothing but the part and its index list is; the part is put first only when the list lacks it |
| Worker.ExpandPart | src/searchWorker.js:45-53 | a part with no index entry and a non-empty pattern list becomes its first pattern; any other part stays itself |
| Worker.Expand | src/searchWorker.js:44-54 | the expanded list holds exactly the expansions of the parts |
| Worker.RawParts | src/searchWorker.js:44-55 | no repeats, first-occurrence order, and exactly the unexpanded parts plus the leaves of the first pattern of the expanded ones |
| Worker.RepeatedPartIgnored | src/searchWorker.js:55 | appending a part that is already present leaves `rawParts` unchanged |
| Worker.VariantGroups | src/searchWorker.js:58 | one group per raw part: the part followed by its variants |
| Worker.Combos | src/searchWorker.js:58-66 | product-of-lengths many combinations; a list is one iff it has one slot per raw part holding the part or one of its variants |
| Worker.Candidates | src/searchWorker.js:69-88 | at most 100 distinct composites, each in the intersection of some combination, ordered by match count, none omitted that matches more often than one kept, and every matched composite present when fewer than 100 are returned |
| Worker.NoPartsNoCandidates | src/searchWorker.js:77 | no raw parts give no candidates |
| Worker.Ranked | src/searchWorker.js:107-114 | the candidates re-ordered by non-increasing best pattern score |
| Worker.Unfiltered | src/searchWorker.js:25-32 | before the region filter, the one-part parts->kanji list holds exactly the part and its index entries; otherwise at most 100 results |
| Worker.Search | src/searchWorker.js:22-128 | parts->kanji results all pass the region test; a one-part parts->kanji query returns exactly the accepted members of the part and its index list; otherwise at most 100 results, whose members and order `Worker.PipelineResults` and `Worker.PipelineOrder` give |
| Worker.PipelineResults | src/searchWorker.js:44-125 | outside the one-part parts->kanji short cut, a reply holds exactly the candidates of the expanded parts that the region accepts, and every candidate in kanji->parts mode |
| Worker.PipelineOrder | src/searchWorker.js:107-125 | outside the one-part parts->kanji short cut, a reply is non-increasing in best pattern score in every mode and region |
| Worker.FilteredRankedOrder | src/searchWorker.js:107-125 | filtering the ranked list by region keeps its score order |
| Worker.ModesShareThePipeline | src/searchWorker.js:117-125 | kanji->parts ignores the region and is the ranked list; parts->kanji with other than one part is that list filtered by region |
| Worker.UnknownSinglePart | src/searchWorker.js:28-32 | in parts->kanji mode, a single part absent from the index yields itself when the region accepts it and nothing otherwise |
| Worker.EmptyQuery | src/searchWorker.js:44-88 | an empty part list gives an empty result in every mode and region |
| Worker.BeforeInitSinglePart | src/searchWorker.js:4-125 | with the empty tables in force before any init message, a one-part kanji->parts query returns exactly that part, in every region |
| Worker.EmptyCandidates | src/searchWorker.js:44-88 | with empty tables, a part is its own and only candidate |
| Worker.RepeatIsIgnored | src/searchWorker.js:55 | repeating a part of a multi-part query does not change the result |
| Worker.SearchRegionNesting | src/searchWorker.js:116-125 | for one query in parts->kanji mode, `joyo` results are the `japanese` results filtered again; in either mode each region's results are a subsequence of the next wider one's |
| Worker.Installed | src/searchWorker.js:9-13 | init installs the four maps as sent and a joyo set with exactly the listed characters |
| Worker.Handle | src/searchWorker.js:6-128 | init replaces the tables and posts nothing; a query keeps the tables and posts the search result |
| Worker.InitReplacesTables | src/searchWorker.js:7-20 | after an init, replies and final tables do not depend on the earlier tables, and there is one reply per query |
| Worker.QueryThenRest | src/searchWorker.js:22-128 | a query posts its own search result ahead of the later replies and hands the tables on unchanged |
| Worker.Run | src/searchWorker.js:6-128 | a message stream posts at most one reply per message; a stream of queries only keeps the tables and posts exactly one reply per query |
| App.Normalize | src/App.js:28-31 | a listed character becomes the first of its bases (`undefined` if the list is empty); an unlisted one is kept |
| App.NormalizeInGroup | src/App.js:28-31 | a character's normalised form is in the variant group its own query builds |
| App.NormalizeDecomp | src/App.js:33-36 | same keys in the same order, each part list normalised elementwise with its length kept |
| App.Load | src/App.js:26-38 | the loaded table keeps the file's keys and order, and the variant table as given |
| App.HanChars | src/App.js:46 | the query's Han characters, in order, each as a one-character string |
| App.HanCharsConcat | src/App.js:46 | filtering a concatenation is concatenating the filtered pieces |
| App.VariantGroup | src/App.js:52-55 | a group starts with its character and holds exactly it and its listed bases |
| App.MatchKanji | src/App.js:60-66 | a key is returned iff its part list meets every group; the results are a subsequence of the keys |
| App.ListParts | src/App.js:70 | the part list of the first entry with that key, or `[]` when there is none |
| App.Search | src/App.js:44-74 | no Han character gives `[]`; part2char returns table keys only, at most one per entry |
| App.InitialFindsNothing | src/App.js:7-8 | before the tables load, every query finds nothing |
| App.FoundByRawParts | src/App.js:28-36 | a composite whose unnormalised parts include every Han query character is found, provided none of them has an empty base list |
| App.SameCharsSameMatches | src/App.js:58-66 | queries with the same set of Han characters, in any order or multiplicity, give the same part2char result |
| App.MoreCharsNarrow | src/App.js:58-66 | typing more characters gives a subsequence of the earlier part2char result |
| App.MatchNarrow | src/App.js:60-66 | a stricter group test selects a subsequence of the keys a weaker one selects |
| App.ListsLoadedParts | src/App.js:67-71 | char2part returns the normalised parts of the first Han character's entry, whatever follows it in the query |
| App.ListPartsAt | src/App.js:70 | the lookup returns the part list of the first entry carrying the key |
| App.UnknownCharHasNoParts | src/App.js:70 | a first Han character without an entry gives `[]` |

## Left out

- I/O is not modelled. This covers fetching and merging the JSON files, React state and rendering, `postMessage` delivery, and `console.log`. The tables arrive as function arguments, and one message is handled at a time.
- A failed fetch in the page leaves the initial empty state (`App.Initial`). The fetch itself is not modelled.
- Mode and region strings are not modelled as strings. The page sends every mode other than `part2char` down the `char2part` branch (`App.Char2Part`). The worker treats every region other than `joyo` and `japanese` as unrestricted (`Tables.Chinese`). The worker tests only `mode === 'partsToKanji'`, so every other mode string is `Tables.KanjiToParts`.
- The Han test (`\p{Script=Han}`) is a parameter, not the Unicode property table.
- `Array.from` splits a string into code points. Dafny's `char` is a Unicode scalar value, so the split is one `char` per element. Surrogate handling is not modelled.
- JSON values of the wrong shape are not modelled: a non-array `directMap` or `patternMap` entry, or a non-string `oldNewMap` value. Keys such as `__proto__` that hit the object prototype are not modelled either.
- Integer-like keys are not reordered. JavaScript lists integer-like object keys first in `Object.entries`; the decomposition table is taken in the order given.
- Duplicate keys in the decomposition table cannot arise from a JSON object. `App.ListParts` takes the first entry with the key.
- Scores are exact rationals. JavaScript's floating-point rounding of `match / total * 100` can only change the order of scores that are equal or differ by one rounding step.
- A message carrying both `init` and `parts` is handled as an init. The model's `Message` is one or the other.
- Score.CalculateScore: the 150 bound is stated only when every input part is Han. Without that the bound is false (`Score.NonHanPartsExceedBound`).
- Worker.Search: the Han-only guarantee on query parts comes from the page that sends them. It is not a precondition here, so the score bounds in `Score` carry it as a hypothesis instead.

=== FILE: app.dfy ===
/** The single-page matcher of `src/App.js`: the decomposition table with
    every part replaced by its base form, and the two query modes over it. */
module App {
  import opened Seqs
  import opened Tables

  /** A slot of a normalised part list: a string, or `undefined` where the
      variant table lists a character with an empty base list. */
  datatype JsValue = Str(s: Sym) | Undefined

  /** `variants.byVariant`: a character to the base characters it is a variant
      of. */
  type ByVariant = map<Sym, seq<Sym>>

  /** A decomposition table in key order: a character and its parts. */
  type Decomp = seq<(Sym, seq<Sym>)>

  /** The normalised table kept by the page. */
  type Entries = seq<(Sym, seq<JsValue>)>

  datatype AppMode = Part2Char | Char2Part

  /** What the page holds: the normalised table and the variant table. */
  datatype State = State(decomp: Entries, byVariant: ByVariant)

  /** Before (or without) a successful load. */
  const Initial := State([], map[])

  // ---------------------------------------------------------------------
  // Loading

  /** `normalize`: a variant is replaced by the first of its bases; a
      character the table does not list is kept. */
  function Normalize(byVariant: ByVariant, ch: Sym): (v: JsValue)
    ensures ch !in byVariant ==> v == Str(ch)
    ensures ch in byVariant && byVariant[ch] != [] ==> v == Str(byVariant[ch][0]) && v.s in byVariant[ch]
    ensures ch in byVariant && byVariant[ch] == [] ==> v == Undefined
  {
    if ch in byVariant then
      var bases := byVariant[ch];
      if |bases| > 0 then Str(bases[0]) else Undefined
    else Str(ch)
  }

  /** `parts.map(normalize)`. */
  function NormalizeParts(byVariant: ByVariant, parts: seq<Sym>): (r: seq<JsValue>)
    ensures |r| == |parts|
    ensures forall i | 0 <= i < |parts| :: r[i] == Normalize(byVariant, parts[i])
  {
    seq(|parts|, i requires 0 <= i < |parts| => Normalize(byVariant, parts[i]))
  }

  /** The `normalized` object: same keys in the same order, every part list
      normalised. */
  function NormalizeDecomp(byVariant: ByVariant, decomp: Decomp): (r: Entries)
    ensures |r| == |decomp|
    ensures Firsts(r) == Firsts(decomp)
    ensures forall i | 0 <= i < |decomp| :: r[i] == (decomp[i].0, NormalizeParts(byVariant, decomp[i].1))
  {
    var r := seq(|decomp|, i requires 0 <= i < |decomp| => (decomp[i].0, NormalizeParts(byVariant, decomp[i].1)));
    assert Firsts(r) == Firsts(decomp);
    r
  }

  /** Both files fetched and parsed. */
  function Load(decompJson: Decomp, variantsJson: ByVariant): (st: State)
    ensures Firsts(st.decomp) == Firsts(decompJson)
    ensures st.byVariant == variantsJson
  {
    State(NormalizeDecomp(variantsJson, decompJson), variantsJson)
  }

  // ---------------------------------------------------------------------
  // Query side

  /** `Array.from(query).filter(ch => /\p{Script=Han}/u.test(ch))`, each
      character as a one-character string. */
  function HanChars(isHanChar: char -> bool, query: string): (r: seq<Sym>)
    ensures |r| <= |query|
    ensures forall x :: x in r <==> exists i | 0 <= i < |query| :: x == [query[i]] && isHanChar(query[i])
    decreases |query|
  {
    if query == [] then []
    else
      var rest := HanChars(isHanChar, query[1..]);
      assert forall i | 1 <= i < |query| :: query[1..][i - 1] == query[i];
      if isHanChar(query[0]) then [[query[0]]] + rest else rest
  }

  lemma {:induction false} HanCharsConcat(isHanChar: char -> bool, a: string, b: string)
    ensures HanChars(isHanChar, a + b) == HanChars(isHanChar, a) + HanChars(isHanChar, b)
    decreases |a|
  {
    if a != [] {
      assert (a + b)[0] == a[0];
      assert (a + b)[1..] == a[1..] + b;
      HanCharsConcat(isHanChar, a[1..], b);
    } else {
      assert a + b == b;
    }
  }

  /** `[ch, ...(variants.byVariant[ch] || [])]`. */
  function VariantGroup(byVariant: ByVariant, ch: Sym): (g: seq<Sym>)
    ensures g != [] && g[0] == ch
    ensures forall v :: v in g <==> v == ch || (ch in byVariant && v in byVariant[ch])
  {
    [ch] + (if ch in byVariant then byVariant[ch] else [])
  }

  /** `variantGroups`, one group per query character. */
  function Groups(byVariant: ByVariant, chars: seq<Sym>): (gs: seq<seq<Sym>>)
    ensures |gs| == |chars|
    ensures forall i | 0 <= i < |chars| :: gs[i] == VariantGroup(byVariant, chars[i])
  {
    seq(|chars|, i requires 0 <= i < |chars| => VariantGroup(byVariant, chars[i]))
  }

  /** `group.some(v => comps.includes(v))`. */
  predicate GroupHit(group: seq<Sym>, comps: seq<JsValue>) {
    exists j | 0 <= j < |group| :: Str(group[j]) in comps
  }

  /** `variantGroups.every(...)`. */
  predicate MatchesAll(groups: seq<seq<Sym>>, comps: seq<JsValue>) {
    forall i | 0 <= i < |groups| :: GroupHit(groups[i], comps)
  }

  /** The `part2char` filter: the keys, in table order, whose part list hits
      every group. */
  function MatchKanji(entries: Entries, groups: seq<seq<Sym>>): (r: seq<Sym>)
    ensures IsSubseq(r, Firsts(entries))
    ensures forall k :: k in r <==> exists i | 0 <= i < |entries| :: entries[i].0 == k && MatchesAll(groups, entries[i].1)
    decreases |entries|
  {
    if entries == [] then []
    else
      var rest := MatchKanji(entries[1..], groups);
      assert Firsts(entries)[1..] == Firsts(entries[1..]);
      assert forall i | 1 <= i < |entries| :: entries[1..][i - 1] == entries[i];
      if MatchesAll(groups, entries[0].1) then [entries[0].0] + rest else rest
  }

  /** `decomp[first] || []`: the part list of the first entry with that key. */
  function ListParts(entries: Entries, first: Sym): (r: seq<JsValue>)
    ensures (exists i | 0 <= i < |entries| :: entries[i].0 == first) ==>
      exists i | 0 <= i < |entries| :: entries[i].0 == first && r == entries[i].1 &&
        forall j | 0 <= j < i :: entries[j].0 != first
    ensures (forall i | 0 <= i < |entries| :: entries[i].0 != first) ==> r == []
    decreases |entries|
  {
    if entries == [] then []
    else if entries[0].0 == first then entries[0].1
    else
      var r := ListParts(entries[1..], first);
      assert forall i | 1 <= i < |entries| :: entries[1..][i - 1] == entries[i];
      r
  }

  /** The result the page shows for a query in a mode. */
  function Search(st: State, isHanChar: char -> bool, query: string, mode: AppMode): (r: seq<JsValue>)
    ensures HanChars(isHanChar, query) == [] ==> r == []
    ensures mode == Part2Char ==> forall v | v in r :: v.Str? && v.s in Firsts(st.decomp)
    ensures mode == Part2Char ==> |r| <= |st.decomp|
  {
    var chars := HanChars(isHanChar, query);
    if chars == [] then []
    else if mode == Part2Char then
      var ks := MatchKanji(st.decomp, Groups(st.byVariant, chars));
      SubseqLength(ks, Firsts(st.decomp));
      Wrap(ks)
    else ListParts(st.decomp, chars[0])
  }

  /** The matched keys as displayed values. */
  function Wrap(ks: seq<Sym>): (r: seq<JsValue>)
    ensures |r| == |ks|
    ensures forall i | 0 <= i < |ks| :: r[i] == Str(ks[i])
    ensures forall v :: v in r <==> v.Str? && v.s in ks
  {
    seq(|ks|, i requires 0 <= i < |ks| => Str(ks[i]))
  }

  // ---------------------------------------------------------------------
  // Properties

  /** Nothing is found before the tables have loaded. */
  lemma InitialFindsNothing(isHanChar: char -> bool, query: string, mode: AppMode)
    ensures Search(Initial, isHanChar, query, mode) == []
  {
    var chars := HanChars(isHanChar, query);
    if chars != [] && mode == Part2Char {
      assert MatchKanji([], Groups(map[], chars)) == [];
    }
  }

  /** The normalised form of a character is in the group its query builds:
      the base a variant is stored as is one of the bases the query tries. */
  lemma NormalizeInGroup(byVariant: ByVariant, ch: Sym)
    requires Normalize(byVariant, ch).Str?
    ensures Normalize(byVariant, ch).s in VariantGroup(byVariant, ch)
  {
  }

  /** A character whose decomposition lists, before normalisation, every Han
      character of the query is found, unless one of those characters has an
      empty base list. */
  lemma {:induction false} FoundByRawParts(decompJson: Decomp, variantsJson: ByVariant, isHanChar: char -> bool,
                                           query: string, i: nat)
    requires i < |decompJson|
    requires forall c | c in HanChars(isHanChar, query) ::
      c in decompJson[i].1 && (c !in variantsJson || variantsJson[c] != [])
    ensures HanChars(isHanChar, query) != [] ==>
      Str(decompJson[i].0) in Search(Load(decompJson, variantsJson), isHanChar, query, Part2Char)
  {
    var st := Load(decompJson, variantsJson);
    var chars := HanChars(isHanChar, query);
    var groups := Groups(variantsJson, chars);
    var comps := st.decomp[i].1;
    assert comps == NormalizeParts(variantsJson, decompJson[i].1);
    forall g | 0 <= g < |groups| ensures GroupHit(groups[g], comps) {
      var c := chars[g];
      assert c in chars;
      var p :| 0 <= p < |decompJson[i].1| && decompJson[i].1[p] == c;
      var v := Normalize(variantsJson, c);
      NormalizeInGroup(variantsJson, c);
      assert comps[p] == v;
      var j :| 0 <= j < |groups[g]| && groups[g][j] == v.s;
      assert Str(groups[g][j]) in comps;
    }
    assert st.decomp[i].0 == decompJson[i].0;
    assert decompJson[i].0 in MatchKanji(st.decomp, groups);
  }

  /** Each group is tested for presence only, so the groups' order and any
      repetition do not matter: two queries with the same Han characters give
      the same part->kanji result. */
  lemma {:induction false} SameCharsSameMatches(st: State, isHanChar: char -> bool, q1: string, q2: string)
    requires forall c :: c in HanChars(isHanChar, q1) <==> c in HanChars(isHanChar, q2)
    ensures Search(st, isHanChar, q1, Part2Char) == Search(st, isHanChar, q2, Part2Char)
  {
    var a := HanChars(isHanChar, q1);
    var b := HanChars(isHanChar, q2);
    assert (a == []) == (b == []) by {
      if a != [] { assert a[0] in b; }
      if b != [] { assert b[0] in a; }
    }
    if a != [] {
      GroupsSameMatch(st.byVariant, a, b);
      GroupsSameMatch(st.byVariant, b, a);
      MatchSame(st.decomp, Groups(st.byVariant, a), Groups(st.byVariant, b));
    }
  }

  lemma GroupsSameMatch(byVariant: ByVariant, a: seq<Sym>, b: seq<Sym>)
    requires forall c | c in a :: c in b
    ensures forall comps :: MatchesAll(Groups(byVariant, b), comps) ==> MatchesAll(Groups(byVariant, a), comps)
  {
    forall comps | MatchesAll(Groups(byVariant, b), comps)
      ensures MatchesAll(Groups(byVariant, a), comps)
    {
      forall i | 0 <= i < |a| ensures GroupHit(Groups(byVariant, a)[i], comps) {
        assert a[i] in a;
        var j :| 0 <= j < |b| && b[j] == a[i];
        assert GroupHit(Groups(byVariant, b)[j], comps);
      }
    }
  }

  lemma {:induction false} MatchSame(entries: Entries, g1: seq<seq<Sym>>, g2: seq<seq<Sym>>)
    requires forall comps :: MatchesAll(g1, comps) <==> MatchesAll(g2, comps)
    ensures MatchKanji(entries, g1) == MatchKanji(entries, g2)
    decreases |entries|
  {
    if entries != [] {
      MatchSame(entries[1..], g1, g2);
    }
  }

  /** Typing more Han characters can only narrow the part->kanji result: it
      is a subsequence of the result for the shorter query. */
  lemma {:induction false} MoreCharsNarrow(st: State, isHanChar: char -> bool, query: string, more: string)
    requires HanChars(isHanChar, query) != []
    ensures IsSubseq(Search(st, isHanChar, query + more, Part2Char), Search(st, isHanChar, query, Part2Char))
  {
    HanCharsConcat(isHanChar, query, more);
    var a := HanChars(isHanChar, query);
    var ab := HanChars(isHanChar, query + more);
    GroupsSameMatch(st.byVariant, a, ab);
    var ks1 := MatchKanji(st.decomp, Groups(st.byVariant, ab));
    var ks2 := MatchKanji(st.decomp, Groups(st.byVariant, a));
    MatchNarrow(st.decomp, Groups(st.byVariant, ab), Groups(st.byVariant, a));
    WrapSubseq(ks1, ks2);
  }

  lemma {:induction false} MatchNarrow(entries: Entries, strong: seq<seq<Sym>>, weak: seq<seq<Sym>>)
    requires forall comps :: MatchesAll(strong, comps) ==> MatchesAll(weak, comps)
    ensures IsSubseq(MatchKanji(entries, strong), MatchKanji(entries, weak))
    decreases |entries|
  {
    if entries != [] {
      MatchNarrow(entries[1..], strong, weak);
      var s := MatchKanji(entries[1..], strong);
      var w := MatchKanji(entries[1..], weak);
      var k := entries[0].0;
      if MatchesAll(strong, entries[0].1) {
        assert ([k] + s)[1..] == s;
        assert ([k] + w)[1..] == w;
      } else if MatchesAll(weak, entries[0].1) {
        assert ([k] + w)[1..] == w;
      }
    }
  }

  lemma {:induction false} WrapSubseq(a: seq<Sym>, b: seq<Sym>)
    requires IsSubseq(a, b)
    ensures IsSubseq(Wrap(a), Wrap(b))
    decreases |b|
  {
    if b != [] {
      assert Wrap(b)[1..] == Wrap(b[1..]);
      if a != [] && a[0] == b[0] && IsSubseq(a[1..], b[1..]) {
        assert Wrap(a)[1..] == Wrap(a[1..]);
        WrapSubseq(a[1..], b[1..]);
      } else {
        WrapSubseq(a, b[1..]);
      }
    }
  }

  /** Kanji->parts looks at the first Han character only and returns its
      decomposition as loaded, every part normalised. */
  lemma ListsLoadedParts(decompJson: Decomp, variantsJson: ByVariant, isHanChar: char -> bool, query: string, i: nat)
    requires HanChars(isHanChar, query) != [] && i < |decompJson|
    requires decompJson[i].0 == HanChars(isHanChar, query)[0]
    requires forall j | 0 <= j < i :: decompJson[j].0 != decompJson[i].0
    ensures Search(Load(decompJson, variantsJson), isHanChar, query, Char2Part) == NormalizeParts(variantsJson, decompJson[i].1)
  {
    var st := Load(decompJson, variantsJson);
    forall j | 0 <= j <= i ensures st.decomp[j].0 == decompJson[j].0 { }
    ListPartsAt(st.decomp, decompJson[i].0, i);
  }

  lemma {:induction false} ListPartsAt(entries: Entries, first: Sym, i: nat)
    requires i < |entries| && entries[i].0 == first
    requires forall j | 0 <= j < i :: entries[j].0 != first
    ensures ListParts(entries, first) == entries[i].1
    decreases i
  {
    if i > 0 {
      assert entries[0].0 != first;
      forall j | 0 <= j < i - 1 ensures entries[1..][j].0 != first {
        assert entries[1..][j] == entries[j + 1];
      }
      ListPartsAt(entries[1..], first, i - 1);
    }
  }

  /** A character the table does not hold has no parts. */
  lemma UnknownCharHasNoParts(st: State, isHanChar: char -> bool, query: string)
    requires HanChars(isHanChar, query) != []
    requires HanChars(isHanChar, query)[0] !in Firsts(st.decomp)
    ensures Search(st, isHanChar, query, Char2Part) == []
  {
    var first := HanChars(isHanChar, query)[0];
    forall i | 0 <= i < |st.decomp| ensures st.decomp[i].0 != first {
      assert Firsts(st.decomp)[i] == st.decomp[i].0;
    }
  }
}

=== FILE: index.dfy ===
/** Steps 3 and 4 of the worker's query path: for every combination, the
    composites that contain each of its components according to the reverse
    index; a tally of how many combinations each composite matched; and the
    shortlist of the 100 best-matched composites. */
module Index {
  import opened Seqs
  import opened Tables
  import opened Sorting

  /** How many composites the shortlist keeps. */
  const ShortlistSize: nat := 100

  /** The containers of component `c`: its reverse-index list when that is a
      non-empty array, otherwise `c` alone (an empty array falls back too). */
  function Containers(t: Tables, c: Sym): (l: seq<Sym>)
    ensures |l| > 0
    ensures c !in t.direct || t.direct[c] == [] ==> l == [c]
  {
    if c in t.direct && |t.direct[c]| > 0 then t.direct[c] else [c]
  }

  /** `k` contains every component of `combo`. */
  predicate InAll(t: Tables, combo: seq<Sym>, k: Sym) {
    forall j | 0 <= j < |combo| :: k in Containers(t, combo[j])
  }

  /** `sets.reduce((a, b) => new Set([...a].filter(k => b.has(k))))` after the
      first set: keep the members of `acc` that every later set has. */
  function Narrow(t: Tables, acc: seq<Sym>, rest: seq<Sym>): (r: seq<Sym>)
    requires Distinct(acc)
    ensures Distinct(r)
    ensures forall k :: k in r <==> k in acc && InAll(t, rest, k)
    decreases |rest|
  {
    if rest == [] then acc
    else
      var c := rest[0];
      var kept := Filter(acc, (k: Sym) => k in Containers(t, c));
      var r := Narrow(t, kept, rest[1..]);
      InAllSplit(t, rest);
      r
  }

  /** Being in every set of a combination means being in the first set and in
      every set of the rest. */
  lemma InAllSplit(t: Tables, combo: seq<Sym>)
    requires |combo| > 0
    ensures forall k :: InAll(t, combo, k) <==> k in Containers(t, combo[0]) && InAll(t, combo[1..], k)
  {
    forall k ensures InAll(t, combo, k) <==> k in Containers(t, combo[0]) && InAll(t, combo[1..], k) {
      if k in Containers(t, combo[0]) && InAll(t, combo[1..], k) {
        forall j | 0 <= j < |combo| ensures k in Containers(t, combo[j]) {
          if j > 0 {
            assert combo[j] == combo[1..][j - 1];
          }
        }
      }
      if InAll(t, combo, k) {
        forall j | 0 <= j < |combo| - 1 ensures k in Containers(t, combo[1..][j]) {
          assert combo[1..][j] == combo[j + 1];
        }
      }
    }
  }

  /** The intersection of the container sets of a non-empty combination, in the
      insertion order of the first set. */
  function Intersect(t: Tables, combo: seq<Sym>): (r: seq<Sym>)
    requires |combo| > 0
    ensures Distinct(r)
    ensures forall k :: k in r <==> InAll(t, combo, k)
  {
    var r := Narrow(t, Dedup(Containers(t, combo[0])), combo[1..]);
    InAllSplit(t, combo);
    r
  }

  /** The `matchCountMap`: composite -> count, in insertion order. */
  type Tally = seq<(Sym, nat)>

  /** Distinct keys, every count positive. */
  predicate TallyOk(m: Tally) {
    Distinct(Firsts(m)) && forall i | 0 <= i < |m| :: m[i].1 > 0
  }

  /** `matchCountMap.get(k) || 0`. */
  function CountOf(m: Tally, k: Sym): (n: nat)
    ensures TallyOk(m) ==> (n > 0 <==> k in Firsts(m))
    decreases |m|
  {
    if m == [] then 0
    else
      TallyTail(m);
      if m[0].0 == k then m[0].1 else CountOf(m[1..], k)
  }

  lemma TallyTail(m: Tally)
    requires m != []
    ensures Firsts(m) == [m[0].0] + Firsts(m[1..])
    ensures TallyOk(m) ==> TallyOk(m[1..]) && m[0].0 !in Firsts(m[1..])
  {
    assert Firsts(m) == [m[0].0] + Firsts(m[1..]);
    if TallyOk(m) {
      forall i, j | 0 <= i < j < |m| - 1 ensures Firsts(m[1..])[i] != Firsts(m[1..])[j] {
        assert Firsts(m)[i + 1] != Firsts(m)[j + 1];
      }
      forall i | 0 <= i < |m| - 1 ensures m[1..][i].1 > 0 {
        assert m[1..][i] == m[i + 1];
      }
      forall j | 0 <= j < |m| - 1 ensures Firsts(m[1..])[j] != m[0].0 {
        assert Firsts(m)[0] != Firsts(m)[j + 1];
      }
    }
  }

  /** `matchCountMap.set(k, (matchCountMap.get(k) || 0) + 1)`: an existing key
      keeps its place, a new key goes last. */
  function Bump(m: Tally, k: Sym): (r: Tally)
    requires TallyOk(m)
    ensures TallyOk(r)
    ensures forall x :: CountOf(r, x) == CountOf(m, x) + (if x == k then 1 else 0)
    decreases |m|
  {
    if m == [] then
      assert Firsts([(k, 1)]) == [k];
      [(k, 1)]
    else
      TallyTail(m);
      if m[0].0 == k then
        var r := [(k, m[0].1 + 1)] + m[1..];
        assert r[1..] == m[1..];
        assert Firsts(r) == [k] + Firsts(m[1..]);
        r
      else
        var rest := Bump(m[1..], k);
        var r := [m[0]] + rest;
        assert r[1..] == rest;
        assert Firsts(r) == [m[0].0] + Firsts(rest);
        assert m[0].0 !in Firsts(rest) by {
          assert CountOf(rest, m[0].0) == CountOf(m[1..], m[0].0);
        }
        r
  }

  /** `intersection.forEach(k => bump k)`. */
  function BumpAll(m: Tally, ks: seq<Sym>): (r: Tally)
    requires TallyOk(m) && Distinct(ks)
    ensures TallyOk(r)
    ensures forall x :: CountOf(r, x) == CountOf(m, x) + (if x in ks then 1 else 0)
    decreases |ks|
  {
    if ks == [] then m
    else
      assert forall x :: x in ks <==> x == ks[0] || x in ks[1..] by {
        assert ks == [ks[0]] + ks[1..];
      }
      BumpAll(Bump(m, ks[0]), ks[1..])
  }

  /** How many of the non-empty combinations have `k` in their intersection. */
  function Hits(t: Tables, combos: seq<seq<Sym>>, k: Sym): (n: nat)
    ensures n > 0 <==> exists i | 0 <= i < |combos| :: |combos[i]| > 0 && InAll(t, combos[i], k)
    decreases |combos|
  {
    if combos == [] then 0
    else
      var n := |combos| - 1;
      var last := combos[n];
      assert forall i | 0 <= i < n :: combos[..n][i] == combos[i];
      Hits(t, combos[..n], k) + (if |last| > 0 && InAll(t, last, k) then 1 else 0)
  }

  /** A single combination is matched once or not at all. */
  lemma HitsOne(t: Tables, c: seq<Sym>, k: Sym)
    ensures Hits(t, [c], k) == if |c| > 0 && InAll(t, c, k) then 1 else 0
  {
    assert [c][..0] == [];
  }

  /** `combos.forEach(...)`: the match count of every composite is the number
      of combinations it matched, and only matched composites are keys. */
  function TallyMatches(t: Tables, combos: seq<seq<Sym>>): (m: Tally)
    ensures TallyOk(m)
    ensures forall k :: CountOf(m, k) == Hits(t, combos, k)
    decreases |combos|
  {
    if combos == [] then []
    else
      var n := |combos| - 1;
      var m := TallyMatches(t, combos[..n]);
      var combo := combos[n];
      if |combo| == 0 then m
      else BumpAll(m, Intersect(t, combo))
  }

  /** `entries.map(([k, n]) => [k, n])` with the count as a sort weight. */
  function Weigh(m: Tally): (w: seq<Weighted>)
    ensures |w| == |m|
    ensures Firsts(w) == Firsts(m)
    ensures forall i | 0 <= i < |m| :: w[i] == (m[i].0, m[i].1 as real)
  {
    var w := seq(|m|, i requires 0 <= i < |m| => (m[i].0, m[i].1 as real));
    assert Firsts(w) == Firsts(m);
    w
  }

  lemma CountAt(m: Tally, i: nat)
    requires TallyOk(m) && i < |m|
    ensures CountOf(m, m[i].0) == m[i].1
    decreases i
  {
    TallyTail(m);
    if i > 0 {
      assert m[i] == m[1..][i - 1];
      assert Firsts(m)[0] != Firsts(m)[i];
      CountAt(m[1..], i - 1);
    }
  }

  /** `.sort((a, b) => b[1] - a[1]).slice(0, 100).map(([k]) => k)`. */
  function Shortlist(m: Tally): (r: seq<Sym>)
    requires TallyOk(m)
    ensures |r| <= ShortlistSize
    ensures |r| == if |m| <= ShortlistSize then |m| else ShortlistSize
    ensures Distinct(r)
    ensures forall k | k in r :: CountOf(m, k) > 0
    ensures forall i, j | 0 <= i < j < |r| :: CountOf(m, r[i]) >= CountOf(m, r[j])
    ensures forall k, d | k in r && d in Firsts(m) && d !in r :: CountOf(m, k) >= CountOf(m, d)
    ensures |m| <= ShortlistSize ==> forall d | d in Firsts(m) :: d in r
  {
    var w := Weigh(m);
    var sorted := SortDesc(w);
    var cut := if |sorted| <= ShortlistSize then |sorted| else ShortlistSize;
    ShortlistFacts(m, w, sorted, cut);
    ShortlistKeepsAll(m, w, sorted);
    Firsts(sorted)[..cut]
  }

  /** The shortlist of a tally of combinations, read through `Hits`: at most
      100 matched composites, by non-increasing match count, none left out that
      matches more often than one kept, and all of them when fewer than 100. */
  function TopMatches(t: Tables, combos: seq<seq<Sym>>): (r: seq<Sym>)
    ensures |r| <= ShortlistSize
    ensures Distinct(r)
    ensures forall k | k in r :: Hits(t, combos, k) > 0
    ensures forall i, j | 0 <= i < j < |r| :: Hits(t, combos, r[i]) >= Hits(t, combos, r[j])
    ensures forall k, d | k in r && d !in r && Hits(t, combos, d) > 0 :: Hits(t, combos, k) >= Hits(t, combos, d)
    ensures |r| < ShortlistSize ==> forall d | Hits(t, combos, d) > 0 :: d in r
  {
    var m := TallyMatches(t, combos);
    var r := Shortlist(m);
    forall k | k in r ensures Hits(t, combos, k) > 0 {
      assert CountOf(m, k) > 0;
    }
    forall d | Hits(t, combos, d) > 0 ensures d in Firsts(m) {
      assert CountOf(m, d) > 0;
    }
    r
  }

  lemma ShortlistFacts(m: Tally, w: seq<Weighted>, sorted: seq<Weighted>, cut: nat)
    requires TallyOk(m) && w == Weigh(m) && sorted == SortDesc(w)
    requires cut <= |sorted|
    ensures Distinct(Firsts(sorted)[..cut])
    ensures forall k | k in Firsts(sorted)[..cut] :: CountOf(m, k) > 0
    ensures forall i, j | 0 <= i < j < cut :: CountOf(m, Firsts(sorted)[..cut][i]) >= CountOf(m, Firsts(sorted)[..cut][j])
    ensures forall k, d | k in Firsts(sorted)[..cut] && d in Firsts(m) && d !in Firsts(sorted)[..cut] :: CountOf(m, k) >= CountOf(m, d)
  {
    var keys := Firsts(sorted);
    FirstsPerm(sorted, w);
    SortedKeysDistinct(m, w, sorted);
    SortedKeysOrdered(m, w, sorted);
    SortedKeysAreTallyKeys(m, w, sorted);
    PrefixOrder(m, keys, cut);
    PrefixTop(m, keys, cut);
  }

  /** Without a cut, the sorted keys are all the tally's keys. */
  lemma ShortlistKeepsAll(m: Tally, w: seq<Weighted>, sorted: seq<Weighted>)
    requires w == Weigh(m) && sorted == SortDesc(w)
    ensures forall d | d in Firsts(m) :: d in Firsts(sorted)[..|sorted|]
  {
    assert Firsts(sorted)[..|sorted|] == Firsts(sorted);
    SortedKeysAreTallyKeys(m, w, sorted);
  }

  lemma SortedKeysOrdered(m: Tally, w: seq<Weighted>, sorted: seq<Weighted>)
    requires TallyOk(m) && w == Weigh(m) && multiset(sorted) == multiset(w) && SortedDesc(sorted)
    ensures forall i, j | 0 <= i < j < |sorted| :: CountOf(m, Firsts(sorted)[i]) >= CountOf(m, Firsts(sorted)[j])
  {
    SortedWeightsAreCounts(m, w, sorted);
    forall i, j | 0 <= i < j < |sorted|
      ensures CountOf(m, Firsts(sorted)[i]) >= CountOf(m, Firsts(sorted)[j])
    {
      assert sorted[i].1 >= sorted[j].1;
    }
  }

  lemma SortedKeysAreTallyKeys(m: Tally, w: seq<Weighted>, sorted: seq<Weighted>)
    requires w == Weigh(m) && multiset(Firsts(sorted)) == multiset(Firsts(w))
    ensures forall k :: k in Firsts(sorted) <==> k in Firsts(m)
  {
    forall k ensures k in Firsts(sorted) <==> k in Firsts(m) {
      assert k in Firsts(sorted) <==> k in multiset(Firsts(sorted));
      assert k in Firsts(w) <==> k in multiset(Firsts(w));
    }
  }

  /** The first `cut` keys of a list ordered by count are ordered by count and
      are tally keys. */
  lemma PrefixOrder(m: Tally, keys: seq<Sym>, cut: nat)
    requires TallyOk(m) && Distinct(keys) && cut <= |keys|
    requires forall i, j | 0 <= i < j < |keys| :: CountOf(m, keys[i]) >= CountOf(m, keys[j])
    requires forall k :: k in keys <==> k in Firsts(m)
    ensures Distinct(keys[..cut])
    ensures forall k | k in keys[..cut] :: CountOf(m, k) > 0
    ensures forall i, j | 0 <= i < j < cut :: CountOf(m, keys[..cut][i]) >= CountOf(m, keys[..cut][j])
  {
    var r := keys[..cut];
    forall i, j | 0 <= i < j < cut
      ensures CountOf(m, r[i]) >= CountOf(m, r[j])
    {
      assert r[i] == keys[i] && r[j] == keys[j];
    }
  }

  /** No key beyond the first `cut` outnumbers one within them. */
  lemma PrefixTop(m: Tally, keys: seq<Sym>, cut: nat)
    requires cut <= |keys|
    requires forall i, j | 0 <= i < j < |keys| :: CountOf(m, keys[i]) >= CountOf(m, keys[j])
    requires forall k :: k in keys <==> k in Firsts(m)
    ensures forall k, d | k in keys[..cut] && d in Firsts(m) && d !in keys[..cut] :: CountOf(m, k) >= CountOf(m, d)
  {
    var r := keys[..cut];
    forall k, d | k in r && d in Firsts(m) && d !in r
      ensures CountOf(m, k) >= CountOf(m, d)
    {
      var i :| 0 <= i < cut && r[i] == k;
      var j :| 0 <= j < |keys| && keys[j] == d;
      assert keys[i] == k;
    }
  }

  lemma SortedWeightsAreCounts(m: Tally, w: seq<Weighted>, sorted: seq<Weighted>)
    requires TallyOk(m) && w == Weigh(m) && multiset(sorted) == multiset(w)
    ensures forall i | 0 <= i < |sorted| :: sorted[i].1 == CountOf(m, sorted[i].0) as real
  {
    forall i | 0 <= i < |sorted|
      ensures sorted[i].1 == CountOf(m, sorted[i].0) as real
    {
      assert sorted[i] in multiset(w);
      var p :| 0 <= p < |w| && w[p] == sorted[i];
      CountAt(m, p);
    }
  }

  lemma SortedKeysDistinct(m: Tally, w: seq<Weighted>, sorted: seq<Weighted>)
    requires TallyOk(m) && w == Weigh(m) && multiset(Firsts(sorted)) == multiset(Firsts(w))
    ensures Distinct(Firsts(sorted))
  {
    var keys := Firsts(sorted);
    forall i, j | 0 <= i < j < |keys|
      ensures keys[i] != keys[j]
    {
      DistinctCount(Firsts(m), keys[i]);
      if keys[i] == keys[j] {
        TwoCopies(keys, i, j);
      }
    }
  }
}

=== FILE: product.dfy ===
/** The worker's `cartesianProduct`: every way of picking one member from each
    group, built by folding the groups from the left, starting from the one
    empty combination `[[]]`. */
module Product {

  /** `curr.map(item => [...prev, item])`. */
  function Append<T>(prev: seq<T>, curr: seq<T>): (r: seq<seq<T>>)
    ensures |r| == |curr|
    ensures forall k | 0 <= k < |curr| :: r[k] == prev + [curr[k]]
  {
    seq(|curr|, k requires 0 <= k < |curr| => prev + [curr[k]])
  }

  /** `c` is some combination of `acc` followed by some member of `curr`. */
  predicate Extends<T(==)>(acc: seq<seq<T>>, curr: seq<T>, c: seq<T>) {
    |c| > 0 && c[..|c| - 1] in acc && c[|c| - 1] in curr
  }

  /** `acc.flatMap(prev => curr.map(item => [...prev, item]))`. */
  function Extend<T(==,!new)>(acc: seq<seq<T>>, curr: seq<T>): (r: seq<seq<T>>)
    ensures |r| == |acc| * |curr|
    ensures forall c :: c in r <==> Extends(acc, curr, c)
    decreases |acc|
  {
    if acc == [] then []
    else
      var head := Append(acc[0], curr);
      var tail := Extend(acc[1..], curr);
      LengthStep(|acc|, |curr|);
      ExtendStep(acc, curr, head, tail);
      head + tail
  }

  lemma LengthStep(a: nat, b: nat)
    requires a > 0
    ensures b + (a - 1) * b == a * b
  {
  }

  lemma ExtendStep<T(!new)>(acc: seq<seq<T>>, curr: seq<T>, head: seq<seq<T>>, tail: seq<seq<T>>)
    requires acc != []
    requires head == Append(acc[0], curr)
    requires forall c :: c in tail <==> Extends(acc[1..], curr, c)
    ensures forall c :: c in head + tail <==> Extends(acc, curr, c)
  {
    forall c
      ensures c in head + tail <==> Extends(acc, curr, c)
    {
      if c in head {
        var k :| 0 <= k < |curr| && head[k] == c;
        assert c[..|c| - 1] == acc[0];
      }
      if c in tail {
        assert Extends(acc[1..], curr, c);
        assert c[..|c| - 1] in acc[1..];
      }
      if Extends(acc, curr, c) {
        var prev := c[..|c| - 1];
        if prev == acc[0] {
          var k :| 0 <= k < |curr| && curr[k] == c[|c| - 1];
          assert head[k] == c;
        } else {
          var i :| 0 <= i < |acc| && acc[i] == prev;
          assert acc[1..][i - 1] == prev;
          assert Extends(acc[1..], curr, c);
        }
      }
    }
  }

  /** The product of the group lengths: how many combinations there are. */
  function Size<T>(groups: seq<seq<T>>): nat
    decreases |groups|
  {
    if groups == [] then 1 else Size(groups[..|groups| - 1]) * |groups[|groups| - 1]|
  }

  /** One member of each group, in group order. */
  predicate IsChoice<T(==)>(groups: seq<seq<T>>, c: seq<T>) {
    |c| == |groups| && forall i | 0 <= i < |groups| :: c[i] in groups[i]
  }

  /** `arrays.reduce((acc, curr) => acc.flatMap(...), [[]])`: exactly the
      choices, as many as the product of the group lengths. */
  function Cartesian<T(==,!new)>(groups: seq<seq<T>>): (r: seq<seq<T>>)
    ensures |r| == Size(groups)
    ensures forall c :: c in r <==> IsChoice(groups, c)
    decreases |groups|
  {
    if groups == [] then [[]]
    else
      var n := |groups| - 1;
      var acc := Cartesian(groups[..n]);
      var r := Extend(acc, groups[n]);
      forall c
        ensures c in r <==> IsChoice(groups, c)
      {
        ChoiceStep(groups, c);
      }
      r
  }

  lemma ChoiceStep<T(!new)>(groups: seq<seq<T>>, c: seq<T>)
    requires groups != []
    ensures IsChoice(groups, c) <==> |c| > 0 && IsChoice(groups[..|groups| - 1], c[..|c| - 1]) && c[|c| - 1] in groups[|groups| - 1]
  {
    var n := |groups| - 1;
    if |c| == |groups| {
      if IsChoice(groups[..n], c[..n]) && c[n] in groups[n] {
        forall i | 0 <= i < |groups|
          ensures c[i] in groups[i]
        {
          if i < n {
            assert c[..n][i] == c[i];
            assert groups[..n][i] == groups[i];
          }
        }
      }
      if IsChoice(groups, c) {
        forall i | 0 <= i < n
          ensures c[..n][i] in groups[..n][i]
        {
          assert c[i] in groups[i];
        }
      }
    }
  }

  /** One group holding one member has the one combination of that member. */
  lemma SingletonProduct<T(!new)>(x: T)
    ensures Cartesian([[x]]) == [[x]]
  {
    var r := Cartesian([[x]]);
    assert Size([[x]]) == 1 by {
      assert [[x]][..0] == [];
    }
    assert r[0] in r;
    assert IsChoice([[x]], r[0]);
    assert r[0][0] in [x];
    assert r[0] == [x];
  }
}

=== FILE: regions.dfy ===
/** Step 6 of the worker: the region filter applied to parts->kanji results
    (`src/searchWorker.js` uses the same code in its single-part branch). */
module Regions {
  import opened Seqs
  import opened Tables

  /** The test a region applies to a result: `joyo` keeps standard-use
      characters, `japanese` also keeps historical forms with a modern form,
      any other region keeps everything. */
  function Keep(t: Tables, region: Region): Sym -> bool {
    match region
    case Joyo => (k: Sym) => k in t.joyo
    case Japanese => (k: Sym) => k in t.joyo || HasModernForm(t, k)
    case Chinese => (k: Sym) => true
  }

  /** `results.filter(...)` for `joyo` and `japanese`; the list itself
      otherwise. */
  function ApplyRegion(t: Tables, region: Region, xs: seq<Sym>): (r: seq<Sym>)
    ensures IsSubseq(r, xs)
    ensures forall k :: k in r <==> k in xs && Keep(t, region)(k)
    ensures Distinct(xs) ==> Distinct(r)
  {
    if region == Chinese then
      SubseqRefl(xs);
      xs
    else Filter(xs, Keep(t, region))
  }

  /** The region filter keeps a list's order by any weight. */
  lemma ApplyRegionKeepsOrder(t: Tables, region: Region, xs: seq<Sym>, w: Sym -> real)
    requires forall i, j | 0 <= i < j < |xs| :: w(xs[i]) >= w(xs[j])
    ensures forall i, j | 0 <= i < j < |ApplyRegion(t, region, xs)| ::
      w(ApplyRegion(t, region, xs)[i]) >= w(ApplyRegion(t, region, xs)[j])
  {
    if region != Chinese {
      FilterKeepsOrder(xs, Keep(t, region), w);
    }
  }

  /** The regions are nested: the `joyo` list is the `japanese` list with its
      non-standard characters removed, and the `japanese` list is the
      unrestricted list with its non-Japanese characters removed; each is a
      subsequence of the next. */
  lemma RegionNesting(t: Tables, xs: seq<Sym>)
    ensures ApplyRegion(t, Joyo, xs) == ApplyRegion(t, Joyo, ApplyRegion(t, Japanese, xs))
    ensures ApplyRegion(t, Japanese, xs) == ApplyRegion(t, Japanese, ApplyRegion(t, Chinese, xs))
    ensures IsSubseq(ApplyRegion(t, Joyo, xs), ApplyRegion(t, Japanese, xs))
    ensures IsSubseq(ApplyRegion(t, Japanese, xs), ApplyRegion(t, Chinese, xs))
  {
    FilterNarrow(xs, Keep(t, Joyo), Keep(t, Japanese));
  }
}

=== FILE: score.dfy ===
/** Step 5 of the worker's query path: `calculateScore`, the best score of a
    composite over its decomposition patterns, and the ranking of the
    shortlist by that score. Scores are exact rationals. */
module Score {
  import opened Seqs
  import opened Tables
  import opened Sorting

  /** Every symbol is Han. The caller only sends Han characters; symbols
      introduced by pattern expansion need not be. */
  predicate AllHan(isHanChar: char -> bool, xs: seq<Sym>) {
    forall p | p in xs :: HanSym(isHanChar, p)
  }

  /** `patArr.filter(ch => /\p{Script=Han}/u.test(ch)).length`. */
  function HanCount(isHanChar: char -> bool, pat: seq<Sym>): nat {
    |Filter(pat, (s: Sym) => HanSym(isHanChar, s))|
  }

  lemma HanCountCons(isHanChar: char -> bool, x: Sym, rest: seq<Sym>)
    ensures HanCount(isHanChar, [x] + rest) == (if HanSym(isHanChar, x) then 1 else 0) + HanCount(isHanChar, rest)
  {
    assert ([x] + rest)[0] == x;
    assert ([x] + rest)[1..] == rest;
  }

  /** The sum, over `keys`, of the smaller of the key's count in `input` and in
      `pat`. */
  function SumMin(keys: seq<Sym>, input: seq<Sym>, pat: seq<Sym>): nat
    decreases |keys|
  {
    if keys == [] then 0
    else
      var n := Count(input, keys[0]);
      var occ := Count(pat, keys[0]);
      (if n <= occ then n else occ) + SumMin(keys[1..], input, pat)
  }

  /** `match`: for each distinct input part `p` (the keys of `cnt`, in
      insertion order) add `Math.min(cnt[p], occ)`. */
  function MatchCount(input: seq<Sym>, pat: seq<Sym>): nat {
    SumMin(Dedup(input), input, pat)
  }

  /** `patArr.length >= inParts.length && inParts.every((p, i) => patArr[i] === p)`. */
  predicate ExactPrefix(pat: seq<Sym>, input: seq<Sym>) {
    |pat| >= |input| && forall i | 0 <= i < |input| :: pat[i] == input[i]
  }

  lemma ExactPrefixIsPrefix(pat: seq<Sym>, input: seq<Sym>)
    ensures ExactPrefix(pat, input) <==> input <= pat
  {
    if ExactPrefix(pat, input) {
      assert input == pat[..|input|];
    }
  }

  /** `(match / total) * 100` for a pattern with Han elements. */
  function MatchRate(isHanChar: char -> bool, pat: seq<Sym>, input: seq<Sym>): real
    requires HanCount(isHanChar, pat) > 0
  {
    (MatchCount(input, pat) as real / HanCount(isHanChar, pat) as real) * 100.0
  }

  /** `calculateScore(patArr, inParts)`. */
  function CalculateScore(isHanChar: char -> bool, pat: seq<Sym>, input: seq<Sym>): (score: real)
    ensures score >= 0.0
    ensures HanCount(isHanChar, pat) == 0 ==> score == 0.0
    ensures HanCount(isHanChar, pat) > 0 ==>
      score == MatchRate(isHanChar, pat, input) + (if input <= pat then 50.0 else 0.0)
    ensures HanCount(isHanChar, pat) > 0 && input <= pat ==> score >= 50.0
    ensures AllHan(isHanChar, input) ==> score <= (if input <= pat then 150.0 else 100.0)
  {
    var total := HanCount(isHanChar, pat);
    if total == 0 then 0.0
    else
      ExactPrefixIsPrefix(pat, input);
      RateBound(isHanChar, pat, input);
      MatchRate(isHanChar, pat, input) + (if ExactPrefix(pat, input) then 50.0 else 0.0)
  }

  /** The 150 bound needs Han input parts: the rate divides by the Han
      elements of the pattern but counts matches of every part, so a
      non-Han part (one brought in by pattern expansion) pushes it past 100. */
  lemma NonHanPartsExceedBound(isHanChar: char -> bool, a: Sym, b: Sym)
    requires HanSym(isHanChar, a) && !HanSym(isHanChar, b)
    ensures CalculateScore(isHanChar, [a, b], [a, b]) == 250.0
  {
    HanCountPair(isHanChar, a, b);
    MatchCountPair(a, b);
    assert MatchRate(isHanChar, [a, b], [a, b]) == 200.0;
    assert [a, b] <= [a, b];
  }

  lemma HanCountPair(isHanChar: char -> bool, a: Sym, b: Sym)
    requires HanSym(isHanChar, a) && !HanSym(isHanChar, b)
    ensures HanCount(isHanChar, [a, b]) == 1
  {
    HanCountCons(isHanChar, a, [b]);
    HanCountCons(isHanChar, b, []);
    assert [a] + [b] == [a, b] && [b] + [] == [b];
    assert HanCount(isHanChar, []) == 0;
  }

  lemma MatchCountPair(a: Sym, b: Sym)
    requires a != b
    ensures MatchCount([a, b], [a, b]) == 2
  {
    var pat := [a, b];
    DedupOfDistinct(pat);
    assert Count(pat, a) == 1 && Count(pat, b) == 1;
    assert pat[1..] == [b] && [b][1..] == [];
    assert SumMin([b], pat, pat) == 1;
  }

  /** With Han input parts the rate is at most 100. */
  lemma RateBound(isHanChar: char -> bool, pat: seq<Sym>, input: seq<Sym>)
    requires HanCount(isHanChar, pat) > 0
    ensures 0.0 <= MatchRate(isHanChar, pat, input)
    ensures AllHan(isHanChar, input) ==> MatchRate(isHanChar, pat, input) <= 100.0
  {
    var m := MatchCount(input, pat);
    var total := HanCount(isHanChar, pat);
    if AllHan(isHanChar, input) {
      MatchCountBound(isHanChar, pat, input);
      DivAtMostOne(m as real, total as real);
    }
  }

  lemma DivAtMostOne(a: real, b: real)
    requires 0.0 <= a <= b && b > 0.0
    ensures a / b <= 1.0
  {
    assert (a / b) * b == a;
  }

  /** When every input part is Han, matched occurrences cannot outnumber the
      Han elements of the pattern. */
  lemma MatchCountBound(isHanChar: char -> bool, pat: seq<Sym>, input: seq<Sym>)
    requires AllHan(isHanChar, input)
    ensures MatchCount(input, pat) <= HanCount(isHanChar, pat)
  {
    var keys := Dedup(input);
    SumMinBelowSumCount(keys, input, pat);
    SumCountBound(isHanChar, keys, pat);
  }

  /** The sum, over `keys`, of each key's count in `pat`. */
  function SumCount(keys: seq<Sym>, pat: seq<Sym>): nat
    decreases |keys|
  {
    if keys == [] then 0 else Count(pat, keys[0]) + SumCount(keys[1..], pat)
  }

  lemma {:induction false} SumMinBelowSumCount(keys: seq<Sym>, input: seq<Sym>, pat: seq<Sym>)
    ensures SumMin(keys, input, pat) <= SumCount(keys, pat)
    decreases |keys|
  {
    if keys != [] {
      SumMinBelowSumCount(keys[1..], input, pat);
    }
  }

  lemma {:induction false} SumCountCons(keys: seq<Sym>, x: Sym, rest: seq<Sym>)
    requires Distinct(keys)
    ensures SumCount(keys, [x] + rest) == (if x in keys then 1 else 0) + SumCount(keys, rest)
    decreases |keys|
  {
    if keys != [] {
      assert ([x] + rest)[1..] == rest;
      assert Count([x] + rest, keys[0]) == (if x == keys[0] then 1 else 0) + Count(rest, keys[0]);
      SumCountCons(keys[1..], x, rest);
      assert x in keys <==> x == keys[0] || x in keys[1..];
      if x == keys[0] {
        assert x !in keys[1..];
      }
    }
  }

  lemma {:induction false} SumCountBound(isHanChar: char -> bool, keys: seq<Sym>, pat: seq<Sym>)
    requires Distinct(keys) && AllHan(isHanChar, keys)
    ensures SumCount(keys, pat) <= HanCount(isHanChar, pat)
    decreases |pat|
  {
    if pat == [] {
      SumCountEmpty(keys);
    } else {
      assert pat == [pat[0]] + pat[1..];
      SumCountCons(keys, pat[0], pat[1..]);
      HanCountCons(isHanChar, pat[0], pat[1..]);
      SumCountBound(isHanChar, keys, pat[1..]);
    }
  }

  lemma {:induction false} SumCountEmpty(keys: seq<Sym>)
    ensures SumCount(keys, []) == 0
    decreases |keys|
  {
    if keys != [] {
      SumCountEmpty(keys[1..]);
    }
  }

  /** With distinct input parts, as the worker's `rawParts` are, each part
      contributes 1 when the pattern contains it at all: the match count is the
      number of input parts the pattern contains, whatever their multiplicity
      in the pattern. */
  lemma MatchCountOfDistinct(input: seq<Sym>, pat: seq<Sym>)
    requires Distinct(input)
    ensures MatchCount(input, pat) == |Filter(input, (p: Sym) => p in pat)|
  {
    DedupOfDistinct(input);
    forall k | k in input ensures Count(input, k) == 1 {
      DistinctCount(input, k);
    }
    SumMinOfSingles(input, input, pat);
  }

  lemma {:induction false} SumMinOfSingles(keys: seq<Sym>, input: seq<Sym>, pat: seq<Sym>)
    requires forall k | k in keys :: Count(input, k) == 1
    ensures SumMin(keys, input, pat) == |Filter(keys, (p: Sym) => p in pat)|
    decreases |keys|
  {
    if keys != [] {
      SumMinOfSingles(keys[1..], input, pat);
      assert Count(pat, keys[0]) > 0 <==> keys[0] in pat;
    }
  }

  /** `xs.reduce((m, x) => Math.max(m, x), 0)`. */
  function MaxFold(xs: seq<real>): (m: real)
    ensures m >= 0.0
    ensures forall i | 0 <= i < |xs| :: m >= xs[i]
    ensures m == 0.0 || exists i | 0 <= i < |xs| :: m == xs[i]
    decreases |xs|
  {
    if xs == [] then 0.0
    else
      var n := |xs| - 1;
      var prev := MaxFold(xs[..n]);
      assert forall i | 0 <= i < n :: xs[..n][i] == xs[i];
      if prev >= xs[n] then prev else xs[n]
  }

  /** `patterns.reduce((m, arr) => Math.max(m, calculateScore(arr, rawParts)), 0)`. */
  function BestScore(isHanChar: char -> bool, pats: seq<seq<Sym>>, input: seq<Sym>): (best: real)
    ensures best >= 0.0
    ensures forall i | 0 <= i < |pats| :: best >= CalculateScore(isHanChar, pats[i], input)
    ensures best == 0.0 || exists i | 0 <= i < |pats| :: best == CalculateScore(isHanChar, pats[i], input)
    ensures AllHan(isHanChar, input) ==> best <= 150.0
  {
    var scores := seq(|pats|, i requires 0 <= i < |pats| => CalculateScore(isHanChar, pats[i], input));
    var best := MaxFold(scores);
    assert forall i | 0 <= i < |pats| :: best >= CalculateScore(isHanChar, pats[i], input) by {
      forall i | 0 <= i < |pats| ensures best >= CalculateScore(isHanChar, pats[i], input) {
        assert best >= scores[i];
      }
    }
    assert AllHan(isHanChar, input) ==> best <= 150.0 by {
      if best != 0.0 && AllHan(isHanChar, input) {
        var i :| 0 <= i < |scores| && best == scores[i];
        assert scores[i] <= 150.0;
      }
    }
    best
  }

  /** The score a composite is ranked by: 0 when it has no pattern entry. */
  function ScoreOf(t: Tables, isHanChar: char -> bool, raw: seq<Sym>, k: Sym): real {
    BestScore(isHanChar, PatternsOf(t, k), raw)
  }

  /** `candidates.map(k => ({ k, score }))`. */
  function Scored(t: Tables, isHanChar: char -> bool, raw: seq<Sym>, cands: seq<Sym>): (w: seq<Weighted>)
    ensures |w| == |cands|
    ensures Firsts(w) == cands
    ensures forall i | 0 <= i < |w| :: w[i] == (cands[i], ScoreOf(t, isHanChar, raw, cands[i]))
  {
    var w := seq(|cands|, i requires 0 <= i < |cands| => (cands[i], ScoreOf(t, isHanChar, raw, cands[i])));
    assert Firsts(w) == cands;
    w
  }

  /** The candidates whose score is `v`, in order. */
  function ScoreClass(t: Tables, isHanChar: char -> bool, raw: seq<Sym>, ks: seq<Sym>, v: real): seq<Sym> {
    Filter(ks, (k: Sym) => ScoreOf(t, isHanChar, raw, k) == v)
  }

  /** Every entry carries its key's score. */
  predicate CarriesScores(t: Tables, isHanChar: char -> bool, raw: seq<Sym>, w: seq<Weighted>) {
    forall e | e in w :: e.1 == ScoreOf(t, isHanChar, raw, e.0)
  }

  lemma {:induction false} ClassOfKeys(t: Tables, isHanChar: char -> bool, raw: seq<Sym>, w: seq<Weighted>, v: real)
    requires CarriesScores(t, isHanChar, raw, w)
    ensures Firsts(WithWeight(w, v)) == ScoreClass(t, isHanChar, raw, Firsts(w), v)
    decreases |w|
  {
    if w != [] {
      assert w == [w[0]] + w[1..];
      WithWeightCons(w[0], w[1..], v);
      ClassOfKeys(t, isHanChar, raw, w[1..], v);
      assert Firsts(w) == [w[0].0] + Firsts(w[1..]);
      assert ([w[0].0] + Firsts(w[1..]))[1..] == Firsts(w[1..]);
      if w[0].1 == v {
        assert Firsts([w[0]] + WithWeight(w[1..], v)) == [w[0].0] + Firsts(WithWeight(w[1..], v));
      }
    }
  }

  /** `.sort((a, b) => b.score - a.score).map(x => x.k)`: a permutation of the
      candidates, best score first, candidates of equal score in their
      shortlist order. */
  function Rank(t: Tables, isHanChar: char -> bool, raw: seq<Sym>, cands: seq<Sym>): (r: seq<Sym>)
    ensures multiset(r) == multiset(cands)
    ensures forall i, j | 0 <= i < j < |r| :: ScoreOf(t, isHanChar, raw, r[i]) >= ScoreOf(t, isHanChar, raw, r[j])
    ensures forall v :: ScoreClass(t, isHanChar, raw, r, v) == ScoreClass(t, isHanChar, raw, cands, v)
  {
    var w := Scored(t, isHanChar, raw, cands);
    var sorted := SortDesc(w);
    RankFacts(t, isHanChar, raw, cands, w, sorted);
    Firsts(sorted)
  }

  lemma RankFacts(t: Tables, isHanChar: char -> bool, raw: seq<Sym>, cands: seq<Sym>, w: seq<Weighted>, sorted: seq<Weighted>)
    requires w == Scored(t, isHanChar, raw, cands) && sorted == SortDesc(w)
    ensures forall i, j | 0 <= i < j < |sorted| :: ScoreOf(t, isHanChar, raw, Firsts(sorted)[i]) >= ScoreOf(t, isHanChar, raw, Firsts(sorted)[j])
    ensures forall v :: ScoreClass(t, isHanChar, raw, Firsts(sorted), v) == ScoreClass(t, isHanChar, raw, cands, v)
  {
    assert CarriesScores(t, isHanChar, raw, w);
    assert CarriesScores(t, isHanChar, raw, sorted) by {
      forall e | e in sorted ensures e.1 == ScoreOf(t, isHanChar, raw, e.0) {
        assert e in multiset(w);
      }
    }
    forall i, j | 0 <= i < j < |sorted|
      ensures ScoreOf(t, isHanChar, raw, Firsts(sorted)[i]) >= ScoreOf(t, isHanChar, raw, Firsts(sorted)[j])
    {
      assert sorted[i] in sorted && sorted[j] in sorted;
    }
    forall v ensures ScoreClass(t, isHanChar, raw, Firsts(sorted), v) == ScoreClass(t, isHanChar, raw, cands, v) {
      ClassOfKeys(t, isHanChar, raw, sorted, v);
      ClassOfKeys(t, isHanChar, raw, w, v);
    }
  }
}

=== FILE: seqs.dfy ===
/** Sequence helpers shared by the worker engine and the in-component matcher:
    counting, filtering in order, de-duplication with first-occurrence order,
    and the subsequence relation used to state what the filters keep. */
module Seqs {

  /** No element occurs twice. */
  predicate Distinct<T(==)>(xs: seq<T>) {
    forall i, j | 0 <= i < j < |xs| :: xs[i] != xs[j]
  }

  /** Number of occurrences of `x`, counted left to right as JavaScript's
      `reduce((s, c) => c === x ? s + 1 : s, 0)` does. */
  function Count<T(==)>(xs: seq<T>, x: T): (n: nat)
    ensures n == multiset(xs)[x]
    ensures n <= |xs|
  {
    if xs == [] then 0
    else
      assert xs == [xs[0]] + xs[1..];
      (if xs[0] == x then 1 else 0) + Count(xs[1..], x)
  }

  /** `a` is obtained from `b` by deleting elements, order kept. */
  predicate IsSubseq<T(==)>(a: seq<T>, b: seq<T>)
    decreases |b|
  {
    if b == [] then a == []
    else (a != [] && a[0] == b[0] && IsSubseq(a[1..], b[1..])) || IsSubseq(a, b[1..])
  }

  lemma {:induction false} SubseqRefl<T>(xs: seq<T>)
    ensures IsSubseq(xs, xs)
    decreases |xs|
  {
    if xs != [] {
      SubseqRefl(xs[1..]);
    }
  }

  /** A subsequence is no longer than the list it is drawn from. */
  lemma {:induction false} SubseqLength<T>(a: seq<T>, b: seq<T>)
    requires IsSubseq(a, b)
    ensures |a| <= |b|
    decreases |b|
  {
    if b != [] {
      if a != [] && a[0] == b[0] && IsSubseq(a[1..], b[1..]) {
        SubseqLength(a[1..], b[1..]);
      } else {
        SubseqLength(a, b[1..]);
      }
    }
  }

  /** JavaScript's `Array.prototype.filter`: the elements that `keep` accepts,
      in their original order. */
  function Filter<T(==,!new)>(xs: seq<T>, keep: T -> bool): (r: seq<T>)
    ensures |r| <= |xs|
    ensures forall x :: x in r <==> x in xs && keep(x)
    ensures IsSubseq(r, xs)
    ensures Distinct(xs) ==> Distinct(r)
    decreases |xs|
  {
    if xs == [] then []
    else if keep(xs[0]) then
      var rest := Filter(xs[1..], keep);
      assert ([xs[0]] + rest)[1..] == rest;
      [xs[0]] + rest
    else Filter(xs[1..], keep)
  }

  /** Filtering keeps a list ordered: a list non-increasing in `w` stays so
      after any filter. */
  lemma {:induction false} FilterKeepsOrder<T(!new)>(xs: seq<T>, keep: T -> bool, w: T -> real)
    requires forall i, j | 0 <= i < j < |xs| :: w(xs[i]) >= w(xs[j])
    ensures forall i, j | 0 <= i < j < |Filter(xs, keep)| :: w(Filter(xs, keep)[i]) >= w(Filter(xs, keep)[j])
    decreases |xs|
  {
    if xs != [] {
      var tl := xs[1..];
      forall i, j | 0 <= i < j < |tl| ensures w(tl[i]) >= w(tl[j]) {
        assert tl[i] == xs[i + 1] && tl[j] == xs[j + 1];
      }
      FilterKeepsOrder(tl, keep, w);
      var rest := Filter(tl, keep);
      if keep(xs[0]) {
        var r := [xs[0]] + rest;
        assert r == Filter(xs, keep);
        forall i, j | 0 <= i < j < |r| ensures w(r[i]) >= w(r[j]) {
          if i == 0 {
            assert r[j] == rest[j - 1];
            assert r[j] in tl;
            var p :| 0 <= p < |tl| && tl[p] == r[j];
            assert xs[p + 1] == r[j];
          } else {
            assert r[i] == rest[i - 1] && r[j] == rest[j - 1];
          }
        }
      }
    }
  }

  /** Filtering twice with a weaker and then a stronger test is filtering once
      with the stronger test. */
  lemma {:induction false} FilterNarrow<T(!new)>(xs: seq<T>, strong: T -> bool, weak: T -> bool)
    requires forall x :: strong(x) ==> weak(x)
    ensures Filter(Filter(xs, weak), strong) == Filter(xs, strong)
    decreases |xs|
  {
    if xs != [] {
      FilterNarrow(xs[1..], strong, weak);
      if weak(xs[0]) {
        assert ([xs[0]] + Filter(xs[1..], weak))[1..] == Filter(xs[1..], weak);
      }
    }
  }

  lemma {:induction false} FilterAll<T(!new)>(xs: seq<T>, keep: T -> bool)
    requires forall x | x in xs :: keep(x)
    ensures Filter(xs, keep) == xs
    decreases |xs|
  {
    if xs != [] {
      FilterAll(xs[1..], keep);
      assert xs == [xs[0]] + xs[1..];
    }
  }

  lemma {:induction false} FilterConcat<T(!new)>(a: seq<T>, b: seq<T>, keep: T -> bool)
    ensures Filter(a + b, keep) == Filter(a, keep) + Filter(b, keep)
    decreases |a|
  {
    if a != [] {
      assert (a + b)[0] == a[0];
      assert (a + b)[1..] == a[1..] + b;
      FilterConcat(a[1..], b, keep);
    } else {
      assert a + b == b;
    }
  }

  /** Index of the first occurrence of `x`. */
  function FirstIndex<T(==)>(xs: seq<T>, x: T): (i: nat)
    requires x in xs
    ensures i < |xs| && xs[i] == x
    ensures forall j | 0 <= j < i :: xs[j] != x
    decreases |xs|
  {
    if xs[0] == x then 0 else 1 + FirstIndex(xs[1..], x)
  }

  lemma FirstIndexPrefix<T>(xs: seq<T>, n: nat, x: T)
    requires n <= |xs| && x in xs[..n]
    ensures FirstIndex(xs, x) == FirstIndex(xs[..n], x)
  {
    var k := FirstIndex(xs[..n], x);
    assert xs[k] == x;
    forall j | 0 <= j < k
      ensures xs[j] != x
    {
      assert xs[j] == xs[..n][j];
    }
  }

  /** `[...new Set(xs)]`: one copy of each element, in order of first
      occurrence. */
  function Dedup<T(==,!new)>(xs: seq<T>): (r: seq<T>)
    ensures Distinct(r)
    ensures forall x :: x in r <==> x in xs
    ensures |r| <= |xs|
    ensures forall i, j | 0 <= i < j < |r| :: FirstIndex(xs, r[i]) < FirstIndex(xs, r[j])
    decreases |xs|
  {
    if xs == [] then []
    else
      var n := |xs| - 1;
      var d := Dedup(xs[..n]);
      assert forall x :: x in xs <==> x in xs[..n] || x == xs[n] by {
        assert xs == xs[..n] + [xs[n]];
      }
      forall y | y in d
        ensures FirstIndex(xs, y) == FirstIndex(xs[..n], y) && FirstIndex(xs, y) < n
      {
        FirstIndexPrefix(xs, n, y);
      }
      if xs[n] in d then d
      else
        assert FirstIndex(xs, xs[n]) == n;
        d + [xs[n]]
  }

  lemma {:induction false} DedupOfDistinct<T(!new)>(xs: seq<T>)
    requires Distinct(xs)
    ensures Dedup(xs) == xs
    decreases |xs|
  {
    if xs != [] {
      var n := |xs| - 1;
      DistinctInit(xs);
      DedupOfDistinct(xs[..n]);
      DedupNew(xs);
      InitLast(xs);
    }
  }

  /** A list without repeats whose only member is `x` is `[x]`. */
  lemma DistinctSingle<T>(xs: seq<T>, x: T)
    requires Distinct(xs) && x in xs
    requires forall y | y in xs :: y == x
    ensures xs == [x]
  {
    var i :| 0 <= i < |xs| && xs[i] == x;
    assert xs[0] in xs && xs[|xs| - 1] in xs;
    assert xs[0] == xs[i] && xs[|xs| - 1] == xs[i];
  }

  /** A non-empty list is its prefix followed by its last element. */
  lemma InitLast<T>(xs: seq<T>)
    requires xs != []
    ensures xs == xs[..|xs| - 1] + [xs[|xs| - 1]]
  {
  }

  /** A distinct list's prefix is distinct and lacks the last element. */
  lemma DistinctInit<T>(xs: seq<T>)
    requires Distinct(xs) && xs != []
    ensures Distinct(xs[..|xs| - 1]) && xs[|xs| - 1] !in xs[..|xs| - 1]
  {
    var n := |xs| - 1;
    var init := xs[..n];
    forall i, j | 0 <= i < j < n ensures init[i] != init[j] {
      assert init[i] == xs[i] && init[j] == xs[j];
    }
    forall i | 0 <= i < n ensures init[i] != xs[n] {
      assert init[i] == xs[i];
    }
  }

  /** A last element not seen before is appended to the de-duplicated prefix. */
  lemma DedupNew<T(!new)>(xs: seq<T>)
    requires xs != [] && xs[|xs| - 1] !in xs[..|xs| - 1]
    ensures Dedup(xs) == Dedup(xs[..|xs| - 1]) + [xs[|xs| - 1]]
  {
  }

  /** Appending elements that are already present leaves the de-duplicated
      list unchanged. */
  lemma {:induction false} DedupAbsorb<T(!new)>(xs: seq<T>, ys: seq<T>)
    requires forall y | y in ys :: y in xs
    ensures Dedup(xs + ys) == Dedup(xs)
    decreases |ys|
  {
    if ys == [] {
      assert xs + ys == xs;
    } else {
      var m := |ys| - 1;
      DedupAbsorb(xs, ys[..m]);
      ConcatInit(xs, ys);
      assert ys[m] in ys;
      DedupSeen(xs + ys);
    }
  }

  /** Dropping the last element of `xs + ys` drops the last element of `ys`. */
  lemma ConcatInit<T>(xs: seq<T>, ys: seq<T>)
    requires ys != []
    ensures (xs + ys)[..|xs + ys| - 1] == xs + ys[..|ys| - 1]
    ensures (xs + ys)[|xs + ys| - 1] == ys[|ys| - 1]
  {
  }

  /** A last element seen before adds nothing to the de-duplicated list. */
  lemma DedupSeen<T(!new)>(xs: seq<T>)
    requires xs != [] && xs[|xs| - 1] in xs[..|xs| - 1]
    ensures Dedup(xs) == Dedup(xs[..|xs| - 1])
  {
  }

  /** The first components of a list of pairs (`entries.map(([k]) => k)`). */
  function Firsts<A, B>(ps: seq<(A, B)>): (r: seq<A>)
    ensures |r| == |ps|
    ensures forall i | 0 <= i < |ps| :: r[i] == ps[i].0
    decreases |ps|
  {
    if ps == [] then [] else [ps[0].0] + Firsts(ps[1..])
  }

  lemma FirstsCons<A, B>(h: (A, B), t: seq<(A, B)>)
    ensures Firsts([h] + t) == [h.0] + Firsts(t)
  {
    assert ([h] + t)[1..] == t;
  }

  lemma FirstsConcat<A, B>(x: seq<(A, B)>, y: seq<(A, B)>)
    ensures Firsts(x + y) == Firsts(x) + Firsts(y)
  {
    var l := Firsts(x + y);
    var r := Firsts(x) + Firsts(y);
    forall i | 0 <= i < |l| ensures l[i] == r[i] {
      if i < |x| {
        assert (x + y)[i] == x[i];
      } else {
        assert (x + y)[i] == y[i - |x|];
      }
    }
  }

  /** Rearranging pairs rearranges their first components the same way. */
  lemma {:induction false} FirstsPerm<A, B>(a: seq<(A, B)>, b: seq<(A, B)>)
    requires multiset(a) == multiset(b)
    ensures multiset(Firsts(a)) == multiset(Firsts(b))
    decreases |a|
  {
    if a == [] {
      assert |b| == |multiset(b)|;
    } else {
      assert a[0] in multiset(b);
      var i :| 0 <= i < |b| && b[i] == a[0];
      var rest := b[..i] + b[i + 1..];
      assert b == b[..i] + [b[i]] + b[i + 1..];
      assert a == [a[0]] + a[1..];
      assert multiset(b) == multiset(b[..i]) + multiset{b[i]} + multiset(b[i + 1..]);
      assert multiset(rest) == multiset(b[..i]) + multiset(b[i + 1..]);
      assert multiset(a) == multiset{a[0]} + multiset(a[1..]);
      assert multiset(a[1..]) == multiset(a) - multiset{a[0]};
      assert multiset(rest) == multiset(b) - multiset{b[i]};
      FirstsPerm(a[1..], rest);
      FirstsConcat(b[..i], b[i + 1..]);
      FirstsConcat(b[..i] + [b[i]], b[i + 1..]);
      FirstsConcat(b[..i], [b[i]]);
      FirstsCons(a[0], a[1..]);
    }
  }

  /** A distinct list holds each value at most once. */
  lemma {:induction false} DistinctCount<T>(xs: seq<T>, x: T)
    requires Distinct(xs)
    ensures multiset(xs)[x] <= 1
    decreases |xs|
  {
    if xs != [] {
      assert xs == [xs[0]] + xs[1..];
      DistinctCount(xs[1..], x);
      if xs[0] == x {
        assert x !in xs[1..];
      }
    }
  }

  /** Two equal entries count twice. */
  lemma TwoCopies<T>(xs: seq<T>, i: nat, j: nat)
    requires i < j < |xs| && xs[i] == xs[j]
    ensures multiset(xs)[xs[i]] >= 2
  {
    assert xs == xs[..i] + [xs[i]] + xs[i + 1..j] + [xs[j]] + xs[j + 1..];
  }
}

=== FILE: sorting.dfy ===
/** The descending numeric sort the worker applies twice, once to match counts
    and once to scores. `Array.prototype.sort` is stable, so equal weights keep
    their input order; the model is an insertion sort, and `SortUnique` shows
    that any stable descending arrangement is this one. */
module Sorting {
  import opened Seqs
  import opened Tables

  /** A key paired with the number it is ranked by. */
  type Weighted = (Sym, real)

  /** Non-increasing weights: the order `sort((a, b) => b.w - a.w)` produces. */
  predicate SortedDesc(xs: seq<Weighted>) {
    forall i, j | 0 <= i < j < |xs| :: xs[i].1 >= xs[j].1
  }

  /** The entries of weight `v`, in order. Stability means this subsequence is
      the same before and after sorting. */
  function WithWeight(xs: seq<Weighted>, v: real): seq<Weighted> {
    Filter(xs, (e: Weighted) => e.1 == v)
  }

  lemma WithWeightCons(x: Weighted, s: seq<Weighted>, v: real)
    ensures WithWeight([x] + s, v) == (if x.1 == v then [x] + WithWeight(s, v) else WithWeight(s, v))
  {
    assert ([x] + s)[0] == x;
    assert ([x] + s)[1..] == s;
  }

  /** A head no lighter than the first entry of a descending list keeps it
      descending. */
  lemma SortedCons(h: Weighted, t: seq<Weighted>)
    requires SortedDesc(t) && (t == [] || t[0].1 <= h.1)
    ensures SortedDesc([h] + t)
  {
    var r := [h] + t;
    forall i, j | 0 <= i < j < |r| ensures r[i].1 >= r[j].1 {
      if i == 0 {
        assert r[j] == t[j - 1] && t[0].1 >= t[j - 1].1;
      } else {
        assert r[i] == t[i - 1] && r[j] == t[j - 1];
      }
    }
  }

  /** Places `x` after every entry of strictly greater weight and before the
      rest, so that an earlier entry stays ahead of later ones of equal
      weight. */
  function Insert(x: Weighted, s: seq<Weighted>): (r: seq<Weighted>)
    requires SortedDesc(s)
    ensures SortedDesc(r)
    ensures |r| == |s| + 1
    ensures r[0] == x || (s != [] && r[0] == s[0])
    decreases |s|
  {
    if s == [] || s[0].1 <= x.1 then
      SortedCons(x, s);
      [x] + s
    else
      var rest := Insert(x, s[1..]);
      assert rest[0] == x || rest[0] == s[1..][0];
      SortedCons(s[0], rest);
      [s[0]] + rest
  }

  /** Inserting adds exactly `x`. */
  lemma {:induction false} InsertPerm(x: Weighted, s: seq<Weighted>)
    requires SortedDesc(s)
    ensures multiset(Insert(x, s)) == multiset(s) + multiset{x}
    decreases |s|
  {
    if s != [] && s[0].1 > x.1 {
      InsertPerm(x, s[1..]);
      assert s == [s[0]] + s[1..];
    }
  }

  /** Inserting `x` adds it at the front of its own weight class and leaves
      every other weight class alone. */
  lemma {:induction false} InsertStable(x: Weighted, s: seq<Weighted>, v: real)
    requires SortedDesc(s)
    ensures WithWeight(Insert(x, s), v) == (if x.1 == v then [x] + WithWeight(s, v) else WithWeight(s, v))
    decreases |s|
  {
    if s == [] || s[0].1 <= x.1 {
      WithWeightCons(x, s, v);
    } else {
      var rest := Insert(x, s[1..]);
      InsertStable(x, s[1..], v);
      WithWeightCons(s[0], rest, v);
      WithWeightCons(s[0], s[1..], v);
      assert s == [s[0]] + s[1..];
    }
  }

  /** Stable descending sort. */
  function SortDesc(xs: seq<Weighted>): (r: seq<Weighted>)
    ensures SortedDesc(r)
    ensures |r| == |xs|
    ensures multiset(r) == multiset(xs)
    ensures multiset(Firsts(r)) == multiset(Firsts(xs))
    ensures forall v :: WithWeight(r, v) == WithWeight(xs, v)
    decreases |xs|
  {
    if xs == [] then []
    else
      var sorted := SortDesc(xs[1..]);
      SortDescStep(xs, sorted);
      Insert(xs[0], sorted)
  }

  lemma SortDescStep(xs: seq<Weighted>, sorted: seq<Weighted>)
    requires xs != [] && SortedDesc(sorted)
    requires multiset(sorted) == multiset(xs[1..])
    requires forall v :: WithWeight(sorted, v) == WithWeight(xs[1..], v)
    ensures multiset(Insert(xs[0], sorted)) == multiset(xs)
    ensures multiset(Firsts(Insert(xs[0], sorted))) == multiset(Firsts(xs))
    ensures forall v :: WithWeight(Insert(xs[0], sorted), v) == WithWeight(xs, v)
  {
    SortDescPairs(xs, sorted);
    FirstsPerm(Insert(xs[0], sorted), xs);
    SortDescClasses(xs, sorted);
  }

  lemma SortDescPairs(xs: seq<Weighted>, sorted: seq<Weighted>)
    requires xs != [] && SortedDesc(sorted)
    requires multiset(sorted) == multiset(xs[1..])
    ensures multiset(Insert(xs[0], sorted)) == multiset(xs)
  {
    assert xs == [xs[0]] + xs[1..];
    InsertPerm(xs[0], sorted);
  }

  lemma SortDescClasses(xs: seq<Weighted>, sorted: seq<Weighted>)
    requires xs != [] && SortedDesc(sorted)
    requires forall v :: WithWeight(sorted, v) == WithWeight(xs[1..], v)
    ensures forall v :: WithWeight(Insert(xs[0], sorted), v) == WithWeight(xs, v)
  {
    assert xs == [xs[0]] + xs[1..];
    forall v ensures WithWeight(Insert(xs[0], sorted), v) == WithWeight(xs, v) {
      InsertStable(xs[0], sorted, v);
      WithWeightCons(xs[0], xs[1..], v);
    }
  }

  /** Every weight in a descending list is at most its head's. */
  lemma HeadIsHeaviest(a: seq<Weighted>, e: Weighted)
    requires SortedDesc(a) && e in a
    ensures e.1 <= a[0].1
  {
    var i :| 0 <= i < |a| && a[i] == e;
    if i > 0 {
      assert a[0].1 >= a[i].1;
    }
  }

  lemma HeadWeightClass(b: seq<Weighted>)
    ensures b != [] ==> WithWeight(b, b[0].1) != []
  {
    if b != [] {
      assert b[0] in WithWeight(b, b[0].1);
    }
  }

  /** Two descending lists whose entries of each weight agree in content and
      order are the same list: the stable sort has exactly one result. */
  lemma {:induction false} SortUnique(a: seq<Weighted>, b: seq<Weighted>)
    requires SortedDesc(a) && SortedDesc(b)
    requires forall v :: WithWeight(a, v) == WithWeight(b, v)
    ensures a == b
    decreases |a|
  {
    if a == [] {
      HeadWeightClass(b);
    } else {
      SameHead(a, b);
      SameTailClasses(a, b);
      SortUnique(a[1..], b[1..]);
      assert a == [a[0]] + a[1..];
      assert b == [b[0]] + b[1..];
    }
  }

  /** Such lists start with the same entry: both heads carry the top weight,
      and that weight's class starts with each of them. */
  lemma SameHead(a: seq<Weighted>, b: seq<Weighted>)
    requires SortedDesc(a) && SortedDesc(b) && a != []
    requires forall v :: WithWeight(a, v) == WithWeight(b, v)
    ensures b != [] && a[0] == b[0]
  {
    var w := a[0].1;
    assert a[0] in WithWeight(a, w);
    assert b != [];
    var w' := b[0].1;
    assert b[0] in WithWeight(b, w');
    assert b[0] in WithWeight(a, w');
    HeadIsHeaviest(a, b[0]);
    assert a[0] in WithWeight(b, w);
    HeadIsHeaviest(b, a[0]);
    WithWeightCons(a[0], a[1..], w);
    WithWeightCons(b[0], b[1..], w);
    assert a == [a[0]] + a[1..];
    assert b == [b[0]] + b[1..];
  }

  /** Removing a common head keeps the weight classes equal. */
  lemma SameTailClasses(a: seq<Weighted>, b: seq<Weighted>)
    requires a != [] && b != [] && a[0] == b[0]
    requires forall v :: WithWeight(a, v) == WithWeight(b, v)
    ensures forall v :: WithWeight(a[1..], v) == WithWeight(b[1..], v)
  {
    forall v ensures WithWeight(a[1..], v) == WithWeight(b[1..], v) {
      assert a == [a[0]] + a[1..];
      assert b == [b[0]] + b[1..];
      WithWeightCons(a[0], a[1..], v);
      WithWeightCons(b[0], b[1..], v);
      if v == a[0].1 {
        assert ([a[0]] + WithWeight(a[1..], v))[1..] == WithWeight(a[1..], v);
        assert ([b[0]] + WithWeight(b[1..], v))[1..] == WithWeight(b[1..], v);
      }
    }
  }

  /** Any stable descending arrangement of `xs` is `SortDesc(xs)`. */
  lemma SortDescIsTheStableSort(xs: seq<Weighted>, r: seq<Weighted>)
    requires SortedDesc(r)
    requires forall v :: WithWeight(r, v) == WithWeight(xs, v)
    ensures r == SortDesc(xs)
  {
    SortUnique(r, SortDesc(xs));
  }
}

=== FILE: tables.dfy ===
/** The immutable tables the search worker holds, the two kinds of message it
    receives, and the Unicode-script test the scorer uses. */
module Tables {

  /** A character or component symbol as it appears in the JSON tables. */
  type Sym = string

  /** JavaScript's `\p{Script=Han}` regular expression is not modelled: the
      per-character test is a parameter `isHanChar`. The regular expression is
      unanchored, so a string passes when any of its characters is Han. */
  predicate HanSym(isHanChar: char -> bool, s: Sym) {
    exists i | 0 <= i < |s| :: isHanChar(s[i])
  }

  /** The five tables of the worker.
      - `direct`:  the reverse index, component -> composites containing it;
      - `variant`: character -> its variant forms;
      - `pattern`: composite -> alternative leaf decompositions;
      - `joyo`:    the standard-use set, built from the list sent at init;
      - `oldNew`:  historical form -> modern form. */
  datatype Tables = Tables(
    direct: map<Sym, seq<Sym>>,
    variant: map<Sym, seq<Sym>>,
    pattern: map<Sym, seq<seq<Sym>>>,
    joyo: set<Sym>,
    oldNew: map<Sym, Sym>)

  /** The worker's tables before any init message: all empty. */
  const Empty := Tables(map[], map[], map[], {}, map[])

  /** `mode` of a query: `'partsToKanji'`, or any other string (the caller
      sends `'kanjiToParts'`). */
  datatype Mode = PartsToKanji | KanjiToParts

  /** `region` of a query: `'joyo'`, `'japanese'`, or any other string (the
      caller sends `'chinese'`), which restricts nothing. */
  datatype Region = Joyo | Japanese | Chinese

  /** A message posted to the worker: `data.init` truthy, or a query. */
  datatype Message =
    | Init(direct: map<Sym, seq<Sym>>, variant: map<Sym, seq<Sym>>,
           pattern: map<Sym, seq<seq<Sym>>>, joyoList: seq<Sym>, oldNew: map<Sym, Sym>)
    | Query(parts: seq<Sym>, mode: Mode, region: Region)

  /** `oldNewMap[k]` is truthy: present and not the empty string. */
  predicate HasModernForm(t: Tables, k: Sym) {
    k in t.oldNew && t.oldNew[k] != ""
  }

  /** `variantMap[ch] || []`: an array is truthy even when empty. */
  function VariantsOf(t: Tables, ch: Sym): seq<Sym> {
    if ch in t.variant then t.variant[ch] else []
  }

  /** `patternMap[k] || []`. */
  function PatternsOf(t: Tables, k: Sym): seq<seq<Sym>> {
    if k in t.pattern then t.pattern[k] else []
  }
}

=== FILE: worker.dfy ===
/** The search worker's message handler (`onmessage` in
    `src/searchWorker.js`) as a pure function from the current tables and one
    message to the new tables and the reply, if any. */
module Worker {
  import opened Seqs
  import opened Tables
  import opened Product
  import opened Index
  import opened Score
  import opened Regions

  // ---------------------------------------------------------------------
  // Single-part short-circuit

  /** `directMap[p]` when it is an array, otherwise `[]`, with `p` put in
      front unless it is already listed. */
  function SingleCandidates(t: Tables, p: Sym): (r: seq<Sym>)
    ensures p in r
    ensures forall x :: x in r <==> x == p || (p in t.direct && x in t.direct[p])
    ensures p in t.direct && p in t.direct[p] ==> r == t.direct[p]
    ensures !(p in t.direct && p in t.direct[p]) ==> r[0] == p && r[1..] == (if p in t.direct then t.direct[p] else [])
  {
    var results := if p in t.direct then t.direct[p] else [];
    if p in results then results
    else
      var r := [p] + results;
      assert r[1..] == results;
      r
  }

  // ---------------------------------------------------------------------
  // Step 0: implicit expansion through the first pattern, then de-duplication

  /** `!directMap[p] && patternMap[p]` with a non-empty pattern list: the part
      is replaced by the leaves of its first pattern. */
  predicate Expands(t: Tables, p: Sym) {
    p !in t.direct && p in t.pattern && |t.pattern[p]| > 0
  }

  /** What `parts.forEach` pushes for one part. */
  function ExpandPart(t: Tables, p: Sym): (r: seq<Sym>)
    ensures Expands(t, p) ==> r == t.pattern[p][0]
    ensures !Expands(t, p) ==> r == [p]
  {
    if p !in t.direct && p in t.pattern then
      var pats := t.pattern[p];
      if |pats| > 0 then pats[0] else [p]
    else [p]
  }

  /** The `expanded` array: each part's expansion, in part order. */
  function Expand(t: Tables, parts: seq<Sym>): (r: seq<Sym>)
    ensures forall x :: x in r <==> exists i | 0 <= i < |parts| :: x in ExpandPart(t, parts[i])
    decreases |parts|
  {
    if parts == [] then []
    else
      var r := ExpandPart(t, parts[0]) + Expand(t, parts[1..]);
      assert forall i | 0 < i < |parts| :: parts[1..][i - 1] == parts[i];
      r
  }

  lemma ExpandAppend(t: Tables, parts: seq<Sym>, p: Sym)
    ensures Expand(t, parts + [p]) == Expand(t, parts) + ExpandPart(t, p)
    decreases |parts|
  {
    if parts == [] {
      assert [p][1..] == [];
    } else {
      assert (parts + [p])[0] == parts[0];
      assert (parts + [p])[1..] == parts[1..] + [p];
      ExpandAppend(t, parts[1..], p);
    }
  }

  /** `rawParts = [...new Set(expanded)]`: no repeats, first-occurrence order,
      and exactly the parts that are not expanded together with the leaves of
      the first pattern of those that are. */
  function RawParts(t: Tables, parts: seq<Sym>): (r: seq<Sym>)
    ensures Distinct(r)
    ensures forall x :: x in r <==> x in Expand(t, parts)
    ensures forall i, j | 0 <= i < j < |r| :: FirstIndex(Expand(t, parts), r[i]) < FirstIndex(Expand(t, parts), r[j])
    ensures forall x :: x in r <==> exists i | 0 <= i < |parts| ::
      (Expands(t, parts[i]) && x in t.pattern[parts[i]][0]) || (!Expands(t, parts[i]) && x == parts[i])
  {
    var r := Dedup(Expand(t, parts));
    forall x ensures x in r <==> exists i | 0 <= i < |parts| ::
      (Expands(t, parts[i]) && x in t.pattern[parts[i]][0]) || (!Expands(t, parts[i]) && x == parts[i])
    {
      if x in r {
        var i :| 0 <= i < |parts| && x in ExpandPart(t, parts[i]);
      }
      if exists i | 0 <= i < |parts| ::
        (Expands(t, parts[i]) && x in t.pattern[parts[i]][0]) || (!Expands(t, parts[i]) && x == parts[i])
      {
        var i :| 0 <= i < |parts| &&
          ((Expands(t, parts[i]) && x in t.pattern[parts[i]][0]) || (!Expands(t, parts[i]) && x == parts[i]));
        assert x in ExpandPart(t, parts[i]);
      }
    }
    r
  }

  /** Part multiplicity is lost: repeating a part does not change `rawParts`. */
  lemma RepeatedPartIgnored(t: Tables, parts: seq<Sym>, p: Sym)
    requires p in parts
    ensures RawParts(t, parts + [p]) == RawParts(t, parts)
  {
    ExpandAppend(t, parts, p);
    var i :| 0 <= i < |parts| && parts[i] == p;
    assert forall y | y in ExpandPart(t, p) :: y in Expand(t, parts);
    DedupAbsorb(Expand(t, parts), ExpandPart(t, p));
  }

  // ---------------------------------------------------------------------
  // Steps 1 and 2: variant groups and their Cartesian product

  /** `[ch, ...(variantMap[ch] || [])]` for each raw part. */
  function VariantGroups(t: Tables, raw: seq<Sym>): (g: seq<seq<Sym>>)
    ensures |g| == |raw|
    ensures forall i | 0 <= i < |raw| :: g[i] == [raw[i]] + VariantsOf(t, raw[i])
  {
    seq(|raw|, i requires 0 <= i < |raw| => [raw[i]] + VariantsOf(t, raw[i]))
  }

  /** `combos`: one combination per way of spelling every raw part either as
      itself or as one of its variants. */
  function Combos(t: Tables, raw: seq<Sym>): (r: seq<seq<Sym>>)
    ensures |r| == Size(VariantGroups(t, raw))
    ensures forall c :: c in r <==> (|c| == |raw| &&
      forall i | 0 <= i < |raw| :: c[i] == raw[i] || c[i] in VariantsOf(t, raw[i]))
  {
    var g := VariantGroups(t, raw);
    var r := Cartesian(g);
    forall c ensures IsChoice(g, c) <==> (|c| == |raw| &&
      forall i | 0 <= i < |raw| :: c[i] == raw[i] || c[i] in VariantsOf(t, raw[i]))
    {
      if |c| == |raw| {
        forall i | 0 <= i < |raw|
          ensures c[i] in g[i] <==> c[i] == raw[i] || c[i] in VariantsOf(t, raw[i])
        {
          assert g[i] == [raw[i]] + VariantsOf(t, raw[i]);
        }
      }
    }
    r
  }

  // ---------------------------------------------------------------------
  // Steps 3 and 4: index intersection and the shortlist

  /** `candidates`: at most 100 composites, each in the intersection of the
      container sets of some combination, ordered by how many combinations they
      match, and none left out that matches more often than one kept. */
  function Candidates(t: Tables, raw: seq<Sym>): (r: seq<Sym>)
    ensures |r| <= ShortlistSize
    ensures Distinct(r)
    ensures forall k | k in r :: exists i | 0 <= i < |Combos(t, raw)| ::
      |Combos(t, raw)[i]| > 0 && InAll(t, Combos(t, raw)[i], k)
    ensures forall i, j | 0 <= i < j < |r| :: Hits(t, Combos(t, raw), r[i]) >= Hits(t, Combos(t, raw), r[j])
    ensures forall k, d | k in r && d !in r && Hits(t, Combos(t, raw), d) > 0 ::
      Hits(t, Combos(t, raw), k) >= Hits(t, Combos(t, raw), d)
    ensures |r| < ShortlistSize ==> forall d | Hits(t, Combos(t, raw), d) > 0 :: d in r
  {
    TopMatches(t, Combos(t, raw))
  }

  /** With no parts there is no combination component to match: the only
      combination is empty and is skipped. */
  lemma NoPartsNoCandidates(t: Tables)
    ensures Candidates(t, []) == []
  {
    assert VariantGroups(t, []) == [];
    var combos := Combos(t, []);
    assert combos == [[]];
    assert TallyMatches(t, combos[..0]) == [];
    var m := TallyMatches(t, combos);
    assert combos[..0] == [];
    assert m == [];
  }

  // ---------------------------------------------------------------------
  // The query pipeline

  /** Steps 0-5: expansion, combinations, shortlist, ranking by score. */
  function Ranked(t: Tables, isHanChar: char -> bool, parts: seq<Sym>): (r: seq<Sym>)
    ensures |r| <= ShortlistSize
    ensures multiset(r) == multiset(Candidates(t, RawParts(t, parts)))
    ensures forall i, j | 0 <= i < j < |r| ::
      ScoreOf(t, isHanChar, RawParts(t, parts), r[i]) >= ScoreOf(t, isHanChar, RawParts(t, parts), r[j])
  {
    var raw := RawParts(t, parts);
    var r := Rank(t, isHanChar, raw, Candidates(t, raw));
    assert |r| == |multiset(r)|;
    r
  }

  /** The result list before the region filter: the single-part candidates
      for a one-part parts->kanji query, the ranked list otherwise. */
  function Unfiltered(t: Tables, isHanChar: char -> bool, parts: seq<Sym>, mode: Mode): (r: seq<Sym>)
    ensures mode == PartsToKanji && |parts| == 1 ==>
      forall k :: k in r <==> k == parts[0] || (parts[0] in t.direct && k in t.direct[parts[0]])
    ensures mode == KanjiToParts || |parts| != 1 ==> |r| <= ShortlistSize
  {
    if mode == PartsToKanji && |parts| == 1 then SingleCandidates(t, parts[0])
    else Ranked(t, isHanChar, parts)
  }

  /** The reply to a query message. */
  function Search(t: Tables, isHanChar: char -> bool, parts: seq<Sym>, mode: Mode, region: Region): (r: seq<Sym>)
    ensures mode == PartsToKanji ==> forall k | k in r :: Keep(t, region)(k)
    ensures mode == PartsToKanji && |parts| == 1 ==>
      forall k :: k in r <==> Keep(t, region)(k) && (k == parts[0] || (parts[0] in t.direct && k in t.direct[parts[0]]))
    ensures mode == KanjiToParts || |parts| != 1 ==> |r| <= ShortlistSize
  {
    var base := Unfiltered(t, isHanChar, parts, mode);
    if mode == PartsToKanji then
      var r := ApplyRegion(t, region, base);
      SubseqLength(r, base);
      r
    else base
  }

  /** Outside the one-part parts->kanji short cut, a reply holds exactly the
      candidates the region accepts (every candidate in kanji->parts mode). */
  lemma PipelineResults(t: Tables, isHanChar: char -> bool, parts: seq<Sym>, mode: Mode, region: Region)
    requires mode == KanjiToParts || |parts| != 1
    ensures var r := Search(t, isHanChar, parts, mode, region);
      forall k :: k in r <==> k in Candidates(t, RawParts(t, parts)) && (mode == KanjiToParts || Keep(t, region)(k))
  {
    SearchFromRanked(t, isHanChar, parts, mode, region);
    RankedMembers(t, isHanChar, parts);
  }

  /** Outside the one-part parts->kanji short cut, a reply is ordered by
      non-increasing best pattern score, whatever the region removes. */
  lemma PipelineOrder(t: Tables, isHanChar: char -> bool, parts: seq<Sym>, mode: Mode, region: Region)
    requires mode == KanjiToParts || |parts| != 1
    ensures var r := Search(t, isHanChar, parts, mode, region);
      forall i, j | 0 <= i < j < |r| ::
        ScoreOf(t, isHanChar, RawParts(t, parts), r[i]) >= ScoreOf(t, isHanChar, RawParts(t, parts), r[j])
  {
    SearchFromRanked(t, isHanChar, parts, mode, region);
    FilteredRankedOrder(t, isHanChar, parts, region);
  }

  /** The region filter keeps the ranked list's score order. */
  lemma FilteredRankedOrder(t: Tables, isHanChar: char -> bool, parts: seq<Sym>, region: Region)
    ensures var r := ApplyRegion(t, region, Ranked(t, isHanChar, parts));
      forall i, j | 0 <= i < j < |r| ::
        ScoreOf(t, isHanChar, RawParts(t, parts), r[i]) >= ScoreOf(t, isHanChar, RawParts(t, parts), r[j])
  {
    ScoreOrderSurvivesRegion(t, isHanChar, RawParts(t, parts), region, Ranked(t, isHanChar, parts));
  }

  lemma ScoreOrderSurvivesRegion(t: Tables, isHanChar: char -> bool, raw: seq<Sym>, region: Region, xs: seq<Sym>)
    requires forall i, j | 0 <= i < j < |xs| :: ScoreOf(t, isHanChar, raw, xs[i]) >= ScoreOf(t, isHanChar, raw, xs[j])
    ensures var r := ApplyRegion(t, region, xs);
      forall i, j | 0 <= i < j < |r| :: ScoreOf(t, isHanChar, raw, r[i]) >= ScoreOf(t, isHanChar, raw, r[j])
  {
    var w := (k: Sym) => ScoreOf(t, isHanChar, raw, k);
    forall i, j | 0 <= i < j < |xs| ensures w(xs[i]) >= w(xs[j]) {
      assert ScoreOf(t, isHanChar, raw, xs[i]) >= ScoreOf(t, isHanChar, raw, xs[j]);
    }
    ApplyRegionKeepsOrder(t, region, xs, w);
    var r := ApplyRegion(t, region, xs);
    forall i, j | 0 <= i < j < |r| ensures ScoreOf(t, isHanChar, raw, r[i]) >= ScoreOf(t, isHanChar, raw, r[j]) {
      assert w(r[i]) >= w(r[j]);
    }
  }

  /** Outside the short cut, the reply is the ranked list, region-filtered in
      parts->kanji mode. */
  lemma SearchFromRanked(t: Tables, isHanChar: char -> bool, parts: seq<Sym>, mode: Mode, region: Region)
    requires mode == KanjiToParts || |parts| != 1
    ensures Search(t, isHanChar, parts, mode, region) ==
      if mode == PartsToKanji then ApplyRegion(t, region, Ranked(t, isHanChar, parts)) else Ranked(t, isHanChar, parts)
  {
  }

  /** The ranked list holds exactly the candidates. */
  lemma RankedMembers(t: Tables, isHanChar: char -> bool, parts: seq<Sym>)
    ensures forall k :: k in Ranked(t, isHanChar, parts) <==> k in Candidates(t, RawParts(t, parts))
  {
    var ranked := Ranked(t, isHanChar, parts);
    forall k ensures k in ranked <==> k in Candidates(t, RawParts(t, parts)) {
      assert k in ranked <==> k in multiset(ranked);
    }
  }

  /** There is no separate kanji->parts search: that mode runs the same
      pipeline, even for a single part, and never applies the region filter;
      for more than one part, parts->kanji is that list filtered by region. */
  lemma ModesShareThePipeline(t: Tables, isHanChar: char -> bool, parts: seq<Sym>, region: Region, other: Region)
    ensures Search(t, isHanChar, parts, KanjiToParts, region) == Ranked(t, isHanChar, parts)
    ensures Search(t, isHanChar, parts, KanjiToParts, region) == Search(t, isHanChar, parts, KanjiToParts, other)
    ensures |parts| != 1 ==>
      Search(t, isHanChar, parts, PartsToKanji, region) == ApplyRegion(t, region, Search(t, isHanChar, parts, KanjiToParts, other))
  {
  }

  /** A single part that the reverse index does not know comes back as itself
      when the region does not exclude it. */
  lemma UnknownSinglePart(t: Tables, isHanChar: char -> bool, p: Sym, region: Region)
    requires p !in t.direct
    ensures Search(t, isHanChar, [p], PartsToKanji, region) == if Keep(t, region)(p) then [p] else []
  {
    var c := SingleCandidates(t, [p][0]);
    assert c == [p];
    if region != Chinese {
      assert Filter(c[1..], Keep(t, region)) == [];
    }
  }

  /** An empty part list gives an empty result in every mode and region. */
  lemma EmptyQuery(t: Tables, isHanChar: char -> bool, mode: Mode, region: Region)
    ensures Search(t, isHanChar, [], mode, region) == []
  {
    assert RawParts(t, []) == [] by {
      assert Expand(t, []) == [];
    }
    NoPartsNoCandidates(t);
    var r := Ranked(t, isHanChar, []);
    assert |r| == 0 by {
      assert multiset(r) == multiset{};
    }
  }

  /** Before any init message the tables are empty: a kanji->parts query for
      one part finds exactly that part, whatever the region. */
  lemma BeforeInitSinglePart(isHanChar: char -> bool, p: Sym, region: Region)
    ensures Search(Empty, isHanChar, [p], KanjiToParts, region) == [p]
  {
    EmptyCandidates(p);
    var ranked := Ranked(Empty, isHanChar, [p]);
    assert multiset(ranked) == multiset{p};
    assert |ranked| == 1 by {
      assert |ranked| == |multiset(ranked)|;
    }
    assert ranked[0] in multiset(ranked);
    assert ranked == [p];
    SearchFromRanked(Empty, isHanChar, [p], KanjiToParts, region);
  }

  /** With empty tables a part is its own only candidate: it is not expanded,
      has no variants, and its container set is itself alone. */
  lemma EmptyCandidates(p: Sym)
    ensures Candidates(Empty, RawParts(Empty, [p])) == [p]
  {
    EmptyRawParts(p);
    EmptyHits(p);
    var cands := Candidates(Empty, [p]);
    if cands != [] {
      DistinctSingle(cands, cands[0]);
    }
    DistinctSingle(cands, p);
  }

  lemma EmptyRawParts(p: Sym)
    ensures RawParts(Empty, [p]) == [p]
  {
    var raw := RawParts(Empty, [p]);
    assert !Expands(Empty, p);
    assert p in raw by {
      assert [p][0] == p;
    }
    DistinctSingle(raw, p);
  }

  /** With empty tables only the part itself matches its one combination. */
  lemma EmptyHits(p: Sym)
    ensures forall k :: Hits(Empty, Combos(Empty, [p]), k) > 0 <==> k == p
  {
    EmptyCombos(p);
    assert Containers(Empty, p) == [p];
    forall k ensures Hits(Empty, [[p]], k) > 0 <==> k == p {
      HitsOne(Empty, [p], k);
      assert InAll(Empty, [p], k) <==> k in Containers(Empty, [p][0]);
    }
  }

  /** With empty tables a one-part query has the one combination `[p]`. */
  lemma EmptyCombos(p: Sym)
    ensures Combos(Empty, [p]) == [[p]]
  {
    var g := VariantGroups(Empty, [p]);
    assert g == [[p]] by {
      assert VariantsOf(Empty, p) == [];
      assert [p][0] == p && [p] + [] == [p];
      assert |g| == 1 && g[0] == [p];
    }
    SingletonProduct(p);
  }

  /** Repeating a part of a multi-part query does not change the result:
      containment is not count-aware. */
  lemma RepeatIsIgnored(t: Tables, isHanChar: char -> bool, parts: seq<Sym>, p: Sym, mode: Mode, region: Region)
    requires |parts| >= 2 && p in parts
    ensures Search(t, isHanChar, parts + [p], mode, region) == Search(t, isHanChar, parts, mode, region)
  {
    RepeatedPartIgnored(t, parts, p);
  }

  /** For a fixed query, the parts->kanji `joyo` result is the `japanese`
      result without its non-standard characters, and in either mode each
      region's result is a subsequence of the next wider one. */
  lemma SearchRegionNesting(t: Tables, isHanChar: char -> bool, parts: seq<Sym>, mode: Mode)
    ensures mode == PartsToKanji ==>
      Search(t, isHanChar, parts, mode, Joyo) == ApplyRegion(t, Joyo, Search(t, isHanChar, parts, mode, Japanese))
    ensures IsSubseq(Search(t, isHanChar, parts, mode, Joyo), Search(t, isHanChar, parts, mode, Japanese))
    ensures IsSubseq(Search(t, isHanChar, parts, mode, Japanese), Search(t, isHanChar, parts, mode, Chinese))
  {
    var xs := Unfiltered(t, isHanChar, parts, mode);
    SearchUnfolds(t, isHanChar, parts, mode);
    if mode == PartsToKanji {
      RegionNesting(t, xs);
    } else {
      SubseqRefl(xs);
    }
  }

  /** Every region's result is the one unfiltered list, filtered by region
      in parts->kanji mode only. */
  lemma SearchUnfolds(t: Tables, isHanChar: char -> bool, parts: seq<Sym>, mode: Mode)
    ensures mode == PartsToKanji ==> forall region ::
      Search(t, isHanChar, parts, mode, region) == ApplyRegion(t, region, Unfiltered(t, isHanChar, parts, mode))
    ensures mode == KanjiToParts ==> forall region ::
      Search(t, isHanChar, parts, mode, region) == Unfiltered(t, isHanChar, parts, mode)
  {
  }

  // ---------------------------------------------------------------------
  // Messages

  /** `postMessage({ results })`, or nothing. */
  datatype Reply = NoReply | Results(items: seq<Sym>)

  /** The worker's tables after a message and what it posted back. */
  datatype Step = Step(tables: Tables, reply: Reply)

  /** The tables an init message installs; `joyoSet = new Set(data.joyoList)`. */
  function Installed(msg: Message): (t: Tables)
    requires msg.Init?
    ensures t.direct == msg.direct && t.variant == msg.variant && t.pattern == msg.pattern
    ensures t.oldNew == msg.oldNew
    ensures forall k :: k in t.joyo <==> k in msg.joyoList
  {
    Tables(msg.direct, msg.variant, msg.pattern, (set k | k in msg.joyoList), msg.oldNew)
  }

  /** One `onmessage` call. */
  function Handle(t: Tables, isHanChar: char -> bool, msg: Message): (s: Step)
    ensures msg.Init? ==> s == Step(Installed(msg), NoReply)
    ensures msg.Query? ==> s.tables == t
    ensures msg.Query? ==> s.reply == Results(Search(t, isHanChar, msg.parts, msg.mode, msg.region))
  {
    match msg
    case Init(_, _, _, _, _) => Step(Installed(msg), NoReply)
    case Query(parts, mode, region) => Step(t, Results(Search(t, isHanChar, parts, mode, region)))
  }

  /** Messages handled one at a time, in order: the final tables and the
      replies posted, in order. Queries alone leave the tables as they were
      and get one reply each. */
  function Run(t: Tables, isHanChar: char -> bool, msgs: seq<Message>): (s: (Tables, seq<seq<Sym>>))
    ensures |s.1| <= |msgs|
    ensures AllQueries(msgs) ==> s.0 == t && |s.1| == |msgs|
    decreases |msgs|
  {
    if msgs == [] then (t, [])
    else
      var step := Handle(t, isHanChar, msgs[0]);
      var rest := Run(step.tables, isHanChar, msgs[1..]);
      assert AllQueries(msgs) ==> AllQueries(msgs[1..]) by {
        if AllQueries(msgs) {
          forall i | 0 <= i < |msgs| - 1 ensures msgs[1..][i].Query? {
            assert msgs[1..][i] == msgs[i + 1];
          }
        }
      }
      (rest.0, (if step.reply.Results? then [step.reply.items] else []) + rest.1)
  }

  /** Queries only. */
  predicate AllQueries(msgs: seq<Message>) {
    forall i | 0 <= i < |msgs| :: msgs[i].Query?
  }

  /** An init message replaces the tables wholesale: whatever the worker held
      before, an init followed by queries yields the same replies and the same
      final tables, one reply per query. */
  lemma {:induction false} InitReplacesTables(t1: Tables, t2: Tables, isHanChar: char -> bool, init: Message, qs: seq<Message>)
    requires init.Init? && AllQueries(qs)
    ensures Run(t1, isHanChar, [init] + qs) == Run(t2, isHanChar, [init] + qs)
    ensures Run(t1, isHanChar, [init] + qs).0 == Installed(init)
    ensures |Run(t1, isHanChar, [init] + qs).1| == |qs|
  {
    assert ([init] + qs)[1..] == qs;
  }

  /** A query is answered against the tables in force and leaves them for
      the messages after it: its reply comes first, then theirs. */
  lemma QueryThenRest(t: Tables, isHanChar: char -> bool, q: Message, rest: seq<Message>)
    requires q.Query?
    ensures Run(t, isHanChar, [q] + rest) ==
      (Run(t, isHanChar, rest).0, [Search(t, isHanChar, q.parts, q.mode, q.region)] + Run(t, isHanChar, rest).1)
  {
    assert ([q] + rest)[1..] == rest;
  }
}
